=== FILE: README.md ===
# NMEA 0183 sentence parser, modelled in Dafny

This project models the core of a small C++ NMEA 0183 library (`NMEA.cpp`, `NMEA.h`).
A GPS receiver sends lines of the form `$GPxxx,field,field,...*HH\r\n`.

`NMEA_Parser::parse(char c)` takes them one byte at a time:
- It stores bytes in `msg[200]` until the next `$`.
- It then overwrites the last stored byte with a terminator. On a line ending in CR LF that byte is the LF, and the CR stays in the message; on a `make_nmea` frame, which ends in a lone CR, it is the CR.
- It keeps only messages starting with `GP`.
- It checks the XOR checksum of the bytes before `*` against the number after it.
- It dispatches on the five-character identifier (GGA, GLL, GSA, GSV, RMC, VTG).
- It tokenizes the message on commas into `parts[20][30]`, decodes the sentence and passes it to an overridable handler.

`make_nmea` frames a payload for sending. It writes `$`, the payload, `*`, the checksum in `%02X` and a carriage return.

The modules follow the source's structure:

| file | module | what it holds |
|---|---|---|
| `wrappers.dfy` | `Wrappers` | `Option` |
| `text.dfy` | `Text` | the wire byte and the signed `char`; C strings and `strchr`; `atoi`/`atol`; C's truncating `/` and `%`; `sscanf("%x")`; `printf("%02X")` |
| `checksum.dfy` | `Checksum` | the XOR checksum; the acceptance test in `parse`; `make_nmea` |
| `tokenizer.dfy` | `Tokenizer` | the comma tokenizer of `NMEA_Message(char *)`, as a reference split and as the byte loop |
| `fields.dfy` | `Fields` | `twodig`, `available`, `safeInt`, `safeFloat`, `hemiSign`, `makeTime`, `makeDate`, `makeCoordinate`, `makeHeight`; the header's record classes |
| `sentences.dfy` | `Sentences` | `ismsg` and the dispatch chain; the six sentence constructors |
| `parser.dfy` | `Parser` | the byte-at-a-time assembler, its outcome for each `$`, and whole streams |
| `samples.dfy` | `Samples` | worked instances: empty fields, a GSV sentence with no SNR, and a GGA fix |

How the model represents the source:
- Bytes are `char`s below 256.
- Every comparison and sum that the source does on `char` goes through the two's-complement reading `Text.Signed`.
- Integers are unbounded, except where the source stores into a fixed width: `sscanf("%x")` into a 32-bit `int` through a 64-bit `unsigned long`, and `%02X` of a `char` promoted to a 32-bit `int`.
- `float` values are not modelled. A `float` field is kept as the text `atof` would read (`Fields.Float`). The one exception is the coordinate's minutes, which are an exact `real`.
- A handler call becomes the `Parser.Outcome` value `Handled(sentence)`.
- Several inputs make the source's behaviour undefined. Each is a defined outcome in the model, and no handler is called:
  - a `$` with nothing stored;
  - a message longer than `msg[200]`;
  - a message without `*`;
  - no hex digits after `*`;
  - tokens outside `parts[20][30]`;
  - a decoder reading a part the tokenizer never wrote, including `parts[nparts]` of a message that ends in `,`.
- Each sentence's `…Readable` predicate names what its decoder needs.

## Model

| member | source | states |
|---|---|---|
| Text.Signed | NMEA.cpp:146-155 | a byte read through a signed `char` lies in -128..127 and agrees with the byte modulo 256 |
| Text.CStr | NMEA.cpp:137-141 | the C string in a buffer is a prefix of it with no NUL, ending at the first NUL when there is one |
| Text.Find | NMEA.cpp:112 | the first position of a byte: nothing before it matches, and it matches unless it is the end |
| Text.FindFirst | NMEA.cpp:112 | any position holding the byte with no earlier occurrence is the one found |
| Text.Atoi | NMEA.cpp:79-82 | `atoi` of a digit string is its decimal value, and text starting with neither a sign, space nor digit reads as 0 |
| Text.AtoiStops | NMEA.cpp:292-295 | `atoi` of digits followed by a non-digit is the value of those digits |
| Text.CDiv | NMEA.cpp:120 | C's `/` on `int` truncates toward zero, for negative dividends too |
| Text.CMod | NMEA.cpp:121 | C's `%` is the remainder of that quotient, carries the dividend's sign, and is below the divisor in size |
| Text.Hex02 | NMEA.cpp:346 | `%02X` prints at least two upper-case hex digits, and they denote the value printed |
| Text.Hex02Width | NMEA.cpp:346 | `%02X` prints exactly two digits if and only if the value is below 256 |
| Text.Hex02AtLeast | NMEA.cpp:346 | a value of at least 16^(k-1) prints in at least k digits |
| Text.Unsigned32 | NMEA.cpp:346 | a 32-bit `int` read as `unsigned`: in 0..2^32-1 and congruent to it modulo 2^32 |
| Text.Signed32 | NMEA.cpp:152-153 | an `unsigned` stored into a 32-bit `int`: in the `int` range and congruent to it modulo 2^32 |
| Text.Signed32Unsigned32 | NMEA.cpp:152-153 | reading a 32-bit `int` as unsigned and storing it back gives the `int` back |
| Text.Strtoul | NMEA.cpp:153 | `strtoul`'s conversion: below 2^64; saturates at 2^64-1 when the digits do not fit; a `-` negates modulo 2^64 |
| Text.StoreInt | NMEA.cpp:153 | the `unsigned long` `%x` converts is stored into `chk` modulo 2^32, within the `int` range |
| Text.ScanHexNumeral | NMEA.cpp:153-154 | `%x` reads a plain hex numeral below 2^32 back as its value wrapped into a 32-bit `int` |
| Text.ScanHexNothing | NMEA.cpp:153-154 | `%x` converts nothing from text that cannot start a number |
| Text.ScanHex | NMEA.cpp:153-154 | `%x` yields a value if and only if a hex digit follows the optional space, sign and `0x`, and the value always lies in the 32-bit `int` range |
| Text.HexRunStops | NMEA.cpp:153 | the hex digits `%x` converts end at the first byte that is not a hex digit |
| Text.DigitsStop | NMEA.cpp:153 | a numeral followed by a non-hex byte is converted as the numeral alone, unsigned |
| Text.ScanHexStops | NMEA.cpp:153-154 | `%x` reads a numeral below 2^32 followed by a non-hex byte, such as a carriage return, as the numeral's 32-bit `int` |
| Checksum.Xor | NMEA.cpp:146-150 | the running XOR of the bytes; for 7-bit text it is itself below 0x80 |
| Checksum.XorAppend | NMEA.cpp:146-150 | the checksum of a concatenation is the XOR of the parts' checksums |
| Checksum.Verify | NMEA.cpp:145-155 | the acceptance test has no `*` to stop at if and only if the message holds no `*` |
| Checksum.VerifyPayload | NMEA.cpp:145-155 | a message is accepted if and only if the text after its first `*` reads, via `%x`, as the signed checksum of the bytes before it |
| Checksum.CheckDigits | NMEA.cpp:339-346 | `%02X` of the promoted checksum: 2 to 8 upper-case hex digits, exactly 2 if and only if the checksum is below 0x80, and exactly 8 otherwise |
| Checksum.CheckDigitsRead | NMEA.cpp:339-347 | round trip: `%x` reads the printed digits back as the signed checksum, for every checksum, the eight-digit ones included |
| Checksum.Stamped | NMEA.cpp:346 | the payload, `*` and its check digits: one byte plus the digits longer than the payload |
| Checksum.Frame | NMEA.cpp:339-347 | `make_nmea` output starts with `$`, ends with a carriage return, and is 5 bytes longer than the payload if and only if the checksum is below 0x80 |
| Checksum.PromotedWidth | NMEA.cpp:346 | the checksum prints as two digits if and only if its signed `char` is not negative |
| Checksum.DigitCount | NMEA.cpp:346 | the promoted checksum prints in at most eight digits: two if and only if it is below 0x80, and eight otherwise |
| Checksum.NarrowDigits | NMEA.cpp:346 | two digits if and only if the checksum is below 0x80 |
| Checksum.WideDigits | NMEA.cpp:346 | a checksum of 0x80 or more, a negative `char`, prints in eight digits |
| Checksum.Pow16Widths | NMEA.cpp:346 | 16^7 is 0x10000000 and 16^8 is 2^32 |
| Checksum.FrameInside | NMEA.cpp:339-347 | between its `$` and its carriage return, a frame holds the payload, `*` and the check digits |
| Checksum.StampedVerifies | NMEA.cpp:145-155 | the payload with `*` and its check digits is one C string and passes the acceptance test |
| Checksum.FrameVerifies | NMEA.cpp:339-347 | round trip: strip `$` and the final byte from a frame (as `parse` does) and the rest is one C string that passes the checksum test, whatever the checksum |
| Checksum.CrLfLineVerifies | NMEA.cpp:145-155 | a stamped message that keeps the carriage return of a CR LF line still passes the checksum test |
| Checksum.FrameAscii | NMEA.cpp:339-347 | a 7-bit payload frames with exactly two check digits |
| Tokenizer.Split | NMEA.cpp:205-220 | splitting on commas gives one more segment than there are commas, and no segment holds a comma |
| Tokenizer.SplitJoin | NMEA.cpp:205-220 | joining the segments with commas gives the message back |
| Tokenizer.JoinSplit | NMEA.cpp:205-220 | splitting comma-free parts joined with commas gives the parts back |
| Tokenizer.Segments | NMEA.cpp:201-211 | `nparts` is the number of commas |
| Tokenizer.Tokenize | NMEA.cpp:199-220 | when the tokens fit `parts[20][30]`, `nparts` is the comma count and the parts re-join to the message |
| Tokenizer.TokenizeJoin | NMEA.cpp:199-220 | comma-free parts that fit the table are exactly what the tokenizer makes of their joined text |
| Tokenizer.TokenizeBytes | NMEA.cpp:205-220 | the byte loop builds the same tokens as the reference split, and fails exactly when a write would leave the table |
| Tokenizer.FitsGrows | NMEA.cpp:209-216 | once one write falls outside the table, the whole message is rejected |
| Fields.TwoDig | NMEA.cpp:42-45 | two digit bytes read as their two-digit decimal value in 0..99 |
| Fields.Available | NMEA.cpp:57-60 | for a part without NUL, it holds a byte if and only if its first byte is not the terminator |
| Fields.MakeInt | NMEA.cpp:79-82 | `atoi` of the part: its decimal value for digits, and 0 for an empty part |
| Fields.MakeFloat | NMEA.cpp:84-87 | `atof` of the part's text, never the -1 sentinel |
| Fields.SafeInt | NMEA.cpp:62-65 | on a digit part: -1 if and only if the part is empty, and otherwise its decimal value |
| Fields.SafeFloat | NMEA.cpp:67-70 | the -1 sentinel if and only if the part is empty, and otherwise `atof` of that part's text |
| Fields.HemiSign | NMEA.cpp:72-77 | the sign is ±1, and -1 if and only if the part starts with `S` or `W` |
| Fields.MakeTime | NMEA.cpp:89-96 | for six leading digits: hours, minutes and seconds each in 0..99, together spelling the digits' value in base 100 |
| Fields.MakeDate | NMEA.cpp:98-105 | for six leading digits: day, month and year each in 0..99, together spelling the digits' value in base 100 |
| Fields.MakeCoordinate | NMEA.cpp:107-122 | the sign is the next part's hemisphere sign; for digit text, 100·degrees + whole minutes equals the number before `.`, the minutes lie in [0,100), and their fraction is the digits after `.` |
| Fields.CoordinateOf | NMEA.cpp:107-122 | for `prefix.suffix` in digits: degrees = prefix / 100, and minutes = prefix mod 100 plus suffix / 10^len |
| Fields.MakeHeight | NMEA.cpp:124-129 | the value is `atof` of part `pos`, and the unit is the first byte of part `pos+1` (the terminator when it is empty) |
| Fields.FieldText | NMEA.cpp:205-220 | a field's own text is its whole part, except in the trailing part, where it stops before `*` |
| Fields.SafeIntField | NMEA.cpp:295 | corrected safe reader: on digit text, -1 if and only if the field's own text is empty, and otherwise its value |
| Sentences.IsMsg | NMEA.cpp:52-55 | a five-byte identifier matches if and only if the message starts with it |
| Sentences.KindOf | NMEA.cpp:156-179 | a message is dispatched as a kind if and only if `ismsg` holds for that kind's identifier |
| Sentences.FixQuality | NMEA.cpp:244 | the first byte minus `'0'`: a digit gives its value in 0..9, an empty part gives -48 |
| Sentences.DecodeGga | NMEA.cpp:237-253 | time from part 1, latitude from 2-3, longitude from 4-5, fix quality from 6, satellites from 7, HDOP from 8, altitude from 9-10, geoid separation from 11-12; coordinates negative if and only if south or west |
| Sentences.DecodeGll | NMEA.cpp:255-261 | latitude from parts 1-2, longitude from 3-4, time from 5; negative if and only if south or west |
| Sentences.DecodeGsa | NMEA.cpp:263-276 | mode is the first byte of part 1, fix type `makeInt` of part 2, exactly twelve ids within `satids[20]`, and PDOP, HDOP, VDOP from parts 15-17 |
| Sentences.Table | NMEA.cpp:269-271 | a counting loop's table has one entry per iteration |
| Sentences.TableAt | NMEA.cpp:269-271 | entry `i` of the table is the loop body's value at `i` |
| Sentences.GsaIdRead | NMEA.cpp:268-271 | id `i` of a decoded GSA sentence is `safeInt` of part `i+3` |
| Sentences.GsaIds | NMEA.cpp:268-271 | id `i` is `safeInt` of part `i+3`: -1 if and only if that part is empty, and otherwise its value |
| Sentences.DecodeGsv | NMEA.cpp:280-297 | as written: the three counts from parts 1-3 and `(nparts-3)/4` satellite groups, never more than `svs[4]` holds |
| Sentences.DecodeGsvCorrected | NMEA.cpp:280-297 | the same counts and number of groups, for the decoder with the corrected SNR reading |
| Sentences.Groups | NMEA.cpp:288-296 | the loop yields one group per iteration |
| Sentences.GroupsCorrected | NMEA.cpp:288-296 | the corrected loop yields one group per iteration |
| Sentences.Satellite | NMEA.cpp:292-295 | as written: PRN, elevation and azimuth are `makeInt` of parts k, k+1 and k+2, and the SNR is `safeInt` of part k+3, so -1 if and only if that raw part is empty |
| Sentences.SatelliteCorrected | NMEA.cpp:292-295 | corrected: PRN, elevation and azimuth as written, and the SNR read from the field's own text, -1 if and only if that text is empty; the group equals the as-written one whenever its SNR part is not the trailing part |
| Sentences.GroupsAt | NMEA.cpp:288-296 | group `j` is read from parts `4(j+1)` onward |
| Sentences.GroupsCorrectedAt | NMEA.cpp:288-296 | the same for the corrected groups |
| Sentences.GsvGroup | NMEA.cpp:288-296 | group `j` of the decoded sentence has PRN, elevation and azimuth `makeInt` of parts `4(j+1)`, `4(j+1)+1` and `4(j+1)+2`, and, as written, the SNR `safeInt` of part `4(j+1)+3`, all inside the tokens |
| Sentences.FitsBoundsGroups | NMEA.cpp:286 | tokens that fit `parts[20][30]` give at most four groups, so the decoder reads them exactly when the last group's SNR part was written |
| Sentences.GsvAgreesBeforeLast | NMEA.cpp:288-296 | the source's GSV decoder and the corrected one give the same group wherever its SNR part is not the trailing part |
| Sentences.TrailingSnrAsWritten | NMEA.cpp:295 | as written, `GPGSV_Message` reads an empty SNR in the last group as 0; the corrected decoder gives -1 |
| Sentences.StarredPart | NMEA.cpp:62-65 | a trailing part that holds only `*HH` is present for `safeInt` (value 0) but empty as a field |
| Sentences.GsvSnrSentinel | NMEA.cpp:295 | corrected decoder: each SNR is -1 if and only if its field is empty, and otherwise its decimal value |
| Sentences.DecodeRmc | NMEA.cpp:299-319 | time from part 1, warning from the first byte of 2, latitude from 3-4, longitude from 5-6, speed from 7, track angle from 8, date from 9; magnetic variation is set if and only if part 10 is non-empty, with the sign of part 11 and the text of part 10; the track angle is -1 if and only if part 8 is empty; the coordinate signs follow the hemispheres |
| Sentences.DecodeVtg | NMEA.cpp:331-337 | the four values are `safeFloat` of parts 1, 3, 5 and 7, each -1 if and only if its part is empty |
| Sentences.Decode | NMEA.cpp:156-179 | each kind is decoded by its own constructor, and a GSV message by the decoder as written |
| Sentences.DecodeTag | NMEA.cpp:156-179 | the decoded record is of the kind dispatched |
| Parser.Message | NMEA.cpp:137-141 | the terminated message is a NUL-free prefix of the stored bytes without the last one, and it stops early only at a NUL |
| Parser.FromGps | NMEA.cpp:141 | every message of the six dispatched kinds passes the `GP` screen |
| Parser.Classify | NMEA.cpp:156-179 | a handler is called if and only if the identifier names a kind and the message decodes; the sentence is that kind's reading of the tokens; otherwise the kind is unknown if and only if no identifier matches |
| Parser.Process | NMEA.cpp:138-181 | non-`GP` messages are ignored if and only if the prefix fails; rejected if and only if the checksum test fails; a handled message passed both tests and carries its sentence's identifier |
| Parser.Step | NMEA.cpp:132-192 | `$` resets the buffer; any other byte is stored if and only if `msg` has room, and on a full buffer it is dropped with the overflow flag set and the buffer unchanged; a message ends if and only if a `$` follows intact, non-empty bytes |
| Parser.Respond | NMEA.cpp:135-183 | only an ended message is screened and dispatched |
| Parser.Parse | NMEA.cpp:132-192 | a handler is only called on `$`, after an intact non-empty message that passed both tests and carries the sentence's identifier |
| Parser.StepHandles | NMEA.cpp:135-181 | on `$` after an intact message, a handler is called if and only if the message is accepted, names a kind and decodes, and it gets that decoding |
| Parser.Run | NMEA.cpp:132-192 | a stream leaves a valid state and gives one event per byte |
| Parser.HandledSentences | NMEA.cpp:156-179 | at most one handler call per event, and none in a run where no `$` ends a stored message |
| Parser.RunAppend | NMEA.cpp:132-192 | feeding a stream in two pieces is the same as feeding it at once |
| Parser.RunStores | NMEA.cpp:186-191 | `$`-free bytes that fit are stored in order, and no handler is called |
| Parser.RestartStores | NMEA.cpp:183-191 | a `$` followed by bytes that fit leaves exactly those bytes stored, from any state |
| Parser.LineDelivered | NMEA.cpp:132-192 | a `$`-free line of 1..200 bytes between two `$` is ended intact, from any state |
| Parser.FrameMessage | NMEA.cpp:339-347 | the message `parse` cuts from a framed line is the payload with `*` and its check digits, and it passes the test |
| Parser.FrameBody | NMEA.cpp:339-347 | after its `$`, a framed line is the stamped payload and a carriage return, with no `$` |
| Parser.StampedGps | NMEA.cpp:141 | stamping keeps a payload's `GP` prefix |
| Parser.FrameAccepted | NMEA.cpp:339-347 | round trip: a `GP` payload framed by `make_nmea` is accepted by `parse`, and only its identifier and fields decide its outcome |
| Parser.FrameDelivered | NMEA.cpp:132-192 | end to end: from any state, a framed `GP` payload followed by `$` is ended, accepted and dispatched like the stamped message, and leaves the parser at the start |
| Samples.EmptyFieldsKept | NMEA.cpp:207-211 | `1,,3` splits into three fields, the middle one empty |
| Samples.NoSnrDecodes | NMEA.cpp:295 | `GPGSV,1,1,01,25,15,167,*4B` has one group, with SNR 0 as `parse` decodes it and -1 corrected |
| Samples.NoSnrTokenizes | NMEA.cpp:199-220 | that sample is what the tokenizer makes of its text |
| Samples.FixTokenizes | NMEA.cpp:199-220 | the GGA sample tokens are what the tokenizer makes of their text |
| Samples.FixSampleDecodes | NMEA.cpp:237-253 | those tokenizer-made tokens are readable and decode to 12:35:19, 48° 7.038′ N and 8 satellites |
| Samples.FixDecodes | NMEA.cpp:237-253 | the GGA example `123519,4807.038,N,01131.000,E,1,08,...` decodes as 12:35:19, 48° 7.038′ N, 11° 31′ E, fix quality 1, 8 satellites, 545.4 M altitude, 46.9 M geoid separation |
| Samples.FixTime | NMEA.cpp:89-96 | `123519` reads as 12:35:19 |
| Samples.FixLatitude | NMEA.cpp:107-122 | `4807.038`, `N` reads as 48 degrees 7.038 minutes, positive |
| Samples.FixLongitude | NMEA.cpp:107-122 | `01131.000`, `E` reads as 11 degrees 31 minutes, positive |
| Samples.FixCount | NMEA.cpp:79-82 | `makeInt` of `08` is 8 |
| Samples.TwoDigUnchecked | NMEA.cpp:42-45 | `twodig` reads `0:` as 10 and `-1` as -29 |

## Left out

- `print`, `dump` and the `debug` copy (NMEA.cpp:26-35, 222, 228-235) are diagnostic output. A message of 100 bytes or more overruns `debug[100]`. The model does not reproduce this.
- `coord2str` and `GPRMC_Message::serialize` (NMEA.cpp:321-364) are left out. They format floats, and float arithmetic is not modelled. `make_nmea`, which they call, is modelled.
- `nexttok` and `num` (NMEA.cpp:37-40, 194-197) are never called by the core.
- `float`: `atof`, `pow` and the `float` fields are not modelled. Text fields are kept as `Fields.Float`, the text `atof` reads. The coordinate's minutes are an exact `real`.
- Fields.MakeCoordinate: states the minutes as an exact rational, not the `float` the source rounds `atol(p) / pow(10, strlen(p))` to.
- Text.Atoi: unbounded. The overflow of `atoi`/`atol` on more digits than `int`/`long` hold is not modelled.
- Text.Signed: `char` is taken as signed, as on x86 and AVR. The C standard leaves this to the implementation, and ARM Linux makes `char` unsigned. There a checksum of 0x80 or more would compare as 128..255 and print as two digits, and `twodig` and the GGA fix quality would read bytes of 0x80 or more as large positive values. That reading is not modelled.
- Text.ScanHex: `int` is taken as 32 bits and `unsigned long` as 64 bits, as on a hosted build. The 16-bit `int` of an AVR build is not modelled.
- Text.ScanHex: `0x` followed by a non-hex byte reads as the `0`. C libraries differ here.
- Checksum.CheckDigits: `int` is taken as 32 bits. For a checksum of 0x80 or more, `%02X` of the promoted negative `char` prints eight digits (`FFFFFF80`..`FFFFFFFF`), and `%x` wraps them back to the same negative `int`. So such a frame passes the test too (`Checksum.FrameVerifies`).
- The trailing part: `parts[nparts]` is never terminated by the source. The model reads it as if the loop's last write ended it (`Tokenizer.Tokens.rest`).
- An undefined read or write becomes a named outcome with no handler call. This covers:
  - `msg[-1]` on a `$` with nothing stored;
  - writing past `msg[200]`;
  - reading past a message with no `*`;
  - comparing an unset `chk`;
  - writing outside `parts[20][30]`;
  - a decoder reading a part the tokenizer never wrote, such as `parts[nparts]` when the message ends in `,` (`Tokenizer.Tokens.Written`), a coordinate without `.` or of 20 bytes or more (`tmp[20]`), or a time or date shorter than five bytes.
- An unset `GPRMC_Message::magvar` is modelled as `None`. The source leaves the field uninitialised.
- The handlers (NMEA.cpp:368-378) are no-ops meant to be overridden. A call is modelled as the `Handled` outcome; handler side effects are outside the model.
- A byte arriving while `msg` is full is dropped and marks the message as lost. The source writes past the buffer instead.
- The serial port is not modelled. The stream is a sequence of bytes.

## Choices against NMEA 0183 conventions

NMEA 0183 writes times as `hhmmss.ss`, the checksum as exactly two upper-case hex digits, and minutes and seconds below 60. The code is more lenient in each case, and the model follows the code:
- Time fraction: `makeTime` reads only `hhmmss`; any fraction of a second is ignored.
- Checksum digits: `sscanf("%x")` also accepts lower case, a sign, a `0x` prefix, leading space and any number of digits.
- Range checks: no reader checks a range.
  - A coordinate's minutes lie in [0, 100) (`Fields.MakeCoordinate`).
  - `twodig` checks nothing: `0:` gives 10, and `-1` gives -29 (`Samples.TwoDigUnchecked`).
- Over-long input: a sentence longer than the buffer or with more fields than the table holds is undefined behaviour in the code. The model drops such a sentence.

## Findings

| source | as written | input that shows it | evidently intended | confidence | as-written member | corrected member |
|---|---|---|---|---|---|---|
| NMEA.cpp:295 | `safeInt(k+3)` reads a group's SNR. For the last group that part is the trailing text `*HH`, which `available` sees as non-empty, so `atoi` returns 0 | `$GPGSV,1,1,01,25,15,167,*4B\r` followed by `$` | an empty SNR field gives the `-1` sentinel, as it does in every earlier group (`Sentences.DecodeGsvCorrected`) | not executed | Sentences.TrailingSnrAsWritten | Sentences.GsvSnrSentinel |

=== FILE: checksum.dfy ===
/** The NMEA checksum: the XOR of the bytes between `$` and `*`, the test the
    assembler applies to a received sentence, and `make_nmea`, which frames a
    payload for transmission. */
module Checksum {
  import opened Wrappers
  import opened Text

  /** The running XOR of `s`, as the source's `sum ^= *p` / `chk ^= *p` loops
      compute it. The checksum of 7-bit text is itself a 7-bit value. */
  function Xor(s: seq<Byte>): (x: bv8)
    ensures IsAscii(s) ==> x < 0x80
  {
    if |s| == 0 then 0
    else
      var init := s[..|s|-1];
      assert IsAscii(s) ==> IsAscii(init) && s[|s|-1] as int as bv8 < 0x80;
      Xor(init) ^ (s[|s|-1] as int as bv8)
  }

  /** The checksum of a concatenation combines the checksums of the parts. */
  lemma {:induction false} XorAppend(a: seq<Byte>, b: seq<Byte>)
    ensures Xor(a + b) == Xor(a) ^ Xor(b)
  {
    if |b| == 0 {
      assert a + b == a;
    } else {
      var b' := b[..|b|-1];
      assert (a + b)[..|a + b| - 1] == a + b';
      XorAppend(a, b');
    }
  }

  predicate IsAscii(s: seq<Byte>)
  {
    forall i :: 0 <= i < |s| ==> s[i] as int < 128
  }

  /** How the acceptance test of a terminated message ends. */
  datatype Verdict =
    | Valid      // the number after `*` equals the checksum
    | Mismatch   // it does not
    | NoStar     // no `*`: the source reads past the string's end
    | NoDigits   // nothing `%x` can convert: the source compares an unset value

  /** The assembler's acceptance test on the terminated message `m`: the XOR of
      the bytes before the first `*`, as a signed `char`, against the number
      `%x` reads after that `*`. */
  function Verify(m: seq<Byte>): (v: Verdict)
    ensures v == NoStar <==> '*' !in m
  {
    var i := Find(m, '*');
    if i == |m| then NoStar
    else match ScanHex(m[i+1..])
      case None => NoDigits
      case Some(chk) => if chk == Signed(Xor(m[..i]) as int) then Valid else Mismatch
  }

  /** The acceptance test split at the payload: a message is accepted exactly
      when the text after its first `*` reads as the payload's checksum. */
  lemma VerifyPayload(payload: seq<Byte>, tail: seq<Byte>)
    requires '*' !in payload
    ensures Verify(payload + ['*'] + tail) == Valid <==> ScanHex(tail) == Some(Signed(Xor(payload) as int))
  {
    var m := payload + ['*'] + tail;
    var i := |payload|;
    assert m[..i] == payload && m[i+1..] == tail;
    FindFirst(m, '*', i);
    var expected := Signed(Xor(payload) as int);
    assert Verify(m) == match ScanHex(tail)
      case None => NoDigits
      case Some(chk) => if chk == expected then Valid else Mismatch;
  }

  /** The digits `make_nmea` prints after `*`: `%02X` of the checksum, a
      signed `char` promoted to a 32-bit `int`. Two digits for a 7-bit
      checksum, eight (`FFFFFF80` to `FFFFFFFF`) otherwise. */
  function CheckDigits(payload: seq<Byte>): (r: seq<Byte>)
    ensures IsUpperHex(r) && IsHexDigits(r) && 2 <= |r| <= 8
    ensures Xor(payload) < 0x80 <==> |r| == 2
    ensures Xor(payload) >= 0x80 ==> |r| == 8
  {
    var u := Unsigned32(Signed(Xor(payload) as int));
    DigitCount(Xor(payload));
    Hex02(u)
  }

  /** How many digits `%02X` prints for a checksum promoted to `int`: two for
      a 7-bit checksum, eight for any other, never more than eight. */
  lemma DigitCount(x: bv8)
    ensures var n := |Hex02(Unsigned32(Signed(x as int)))|;
      && n <= 8
      && (x < 0x80 <==> n == 2)
      && (x >= 0x80 ==> n == 8)
  {
    Pow16Widths();
    Hex02AtMost(Unsigned32(Signed(x as int)), 8);
    NarrowDigits(x);
    WideDigits(x);
  }

  lemma NarrowDigits(x: bv8)
    ensures x < 0x80 <==> |Hex02(Unsigned32(Signed(x as int)))| == 2
  {
    PromotedWidth(x);
    Hex02Width(Unsigned32(Signed(x as int)));
  }

  /** A negative `char` promotes to at least 2^32 - 128, which takes eight
      digits. */
  lemma WideDigits(x: bv8)
    ensures x >= 0x80 ==> |Hex02(Unsigned32(Signed(x as int)))| == 8
  {
    if x >= 0x80 {
      var v := Signed(x as int);
      var u := Unsigned32(v);
      assert x as int >= 128;
      assert v < 0;
      assert u >= IntRange - 128;
      Pow16Widths();
      Hex02AtLeast(u, 8);
      Hex02AtMost(u, 8);
    }
  }

  /** 16^7 and 16^8, the bounds of seven- and eight-digit numerals. */
  lemma Pow16Widths()
    ensures Pow16(7) == 0x1000_0000 && Pow16(8) == IntRange
  {
    assert Pow16(2) == 0x100;
    assert Pow16(4) == 0x1_0000 by {
      assert Pow16(3) == 0x1000;
    }
    assert Pow16(6) == 0x100_0000 by {
      assert Pow16(5) == 0x10_0000;
    }
  }

  /** `%x` reads the printed digits back, through the 32-bit `int`, as the
      signed checksum, whatever its sign. */
  lemma CheckDigitsRead(payload: seq<Byte>)
    ensures ScanHex(CheckDigits(payload)) == Some(Signed(Xor(payload) as int))
  {
    var sum := Signed(Xor(payload) as int);
    var u := Unsigned32(sum);
    assert CheckDigits(payload) == Hex02(u);
    ScanHexNumeral(Hex02(u));
    Signed32Unsigned32(sum);
  }

  /** `make_nmea(in, out)`: `$`, the payload, `*`, the payload's checksum
      digits and a carriage return. `payload` is the C string `in`, so holds
      no NUL. */
  function Frame(payload: seq<Byte>): (out: seq<Byte>)
    requires NUL !in payload
    ensures |out| >= |payload| + 5 && out[0] == '$' && out[|out| - 1] == '\r'
    ensures Xor(payload) < 0x80 <==> |out| == |payload| + 5
  {
    ['$'] + Stamped(payload) + ['\r']
  }

  /** A checksum prints as two digits exactly when its signed `char` value is
      not negative. */
  lemma PromotedWidth(x: bv8)
    ensures x < 0x80 <==> Unsigned32(Signed(x as int)) < 256
  {
    assert x < 0x80 <==> x as int < 128;
  }

  /** A payload followed by `*` and its checksum digits: the message
      `make_nmea` frames between `$` and the carriage return. */
  function Stamped(payload: seq<Byte>): (m: seq<Byte>)
    ensures |m| == |payload| + 1 + |CheckDigits(payload)|
  {
    payload + ['*'] + CheckDigits(payload)
  }

  /** Round trip: what `make_nmea` frames passes the assembler's checksum test
      once the leading `$` and the trailing carriage return (the byte the
      assembler overwrites) are removed, whatever the checksum. */
  lemma FrameVerifies(payload: seq<Byte>)
    requires NUL !in payload && '*' !in payload
    ensures var out := Frame(payload);
      CStr(out[1..|out| - 1]) == out[1..|out| - 1] && Verify(out[1..|out| - 1]) == Valid
  {
    FrameInside(payload);
    StampedVerifies(payload);
  }

  /** Between its `$` and its carriage return, a frame is the stamped
      payload. */
  lemma FrameInside(payload: seq<Byte>)
    requires NUL !in payload
    ensures var out := Frame(payload); out[1..|out| - 1] == Stamped(payload)
  {
    var body := Stamped(payload);
    assert (['$'] + body + ['\r'])[1..|body| + 1] == body;
  }

  /** The stamped payload is one C string and passes the checksum test. */
  lemma StampedVerifies(payload: seq<Byte>)
    requires NUL !in payload && '*' !in payload
    ensures CStr(Stamped(payload)) == Stamped(payload) && Verify(Stamped(payload)) == Valid
  {
    var digits := CheckDigits(payload);
    UpperHexNoNul(digits);
    CStrWhole(Stamped(payload));
    CheckDigitsRead(payload);
    VerifyPayload(payload, digits);
  }

  lemma UpperHexNoNul(digits: seq<char>)
    requires IsUpperHex(digits)
    ensures NUL !in digits
  {
    if NUL in digits {
      assert false;
    }
  }

  lemma CStrWhole(s: seq<Byte>)
    requires NUL !in s
    ensures CStr(s) == s
  {
    var c := CStr(s);
    if |c| < |s| {
      assert false;
    }
  }

  /** A line received with CR LF keeps its carriage return once the line feed
      is overwritten; `%x` stops at it, so the message still passes the
      checksum test. */
  lemma CrLfLineVerifies(payload: seq<Byte>)
    requires NUL !in payload && '*' !in payload
    ensures Verify(Stamped(payload) + ['\r']) == Valid
  {
    var sum := Signed(Xor(payload) as int);
    var u := Unsigned32(sum);
    var digits := CheckDigits(payload);
    assert digits == Hex02(u);
    assert HexValue(digits) == u;
    assert Stamped(payload) + ['\r'] == payload + ['*'] + (digits + ['\r']);
    ScanHexStops(digits, ['\r']);
    Signed32Unsigned32(sum);
    VerifyPayload(payload, digits + ['\r']);
  }

  /** 7-bit payloads always frame with exactly two checksum digits. */
  lemma FrameAscii(payload: seq<Byte>)
    requires NUL !in payload && IsAscii(payload)
    ensures |Frame(payload)| == |payload| + 5
  {
  }
}

=== FILE: fields.dfy ===
/** The scalar decoders of `NMEA_Message`: each reads one or two tokenized
    parts by position (`pos`) and builds a value of the header's record types. */
module Fields {
  import opened Text
  import opened Tokenizer

  /** `class Time`: hours, minutes and seconds as two-digit groups. */
  datatype Time = Time(hours: int, minutes: int, seconds: int)

  /** `class Date`: day, month and two-digit year. */
  datatype Date = Date(day: int, month: int, year: int)

  /** `class Coordinate`: hemisphere sign, whole degrees and minutes. The
      source stores `minutes` in a `float`; here it is the exact value. */
  datatype Coordinate = Coordinate(sign: int, degrees: int, minutes: real)

  /** A `float` field: `Atof(text)` stands for `atof(text)`, whose value is not
      modelled; `MinusOne` is the `-1` the safe readers return for an empty
      field. */
  datatype Float = Atof(text: seq<Byte>) | MinusOne

  /** `class Height`: a value and the unit character that follows it. */
  datatype Height = Height(value: Float, units: char)

  /** `class SatelliteInView`: one four-field group of a GSV sentence. */
  datatype SatelliteInView = SatelliteInView(prn: int, elevation: int, azimuth: int, snr: int)

  /** The byte a `char *` to the text `p` points at: its first byte, the
      terminator for an empty text. `parts[pos][0]` is `FirstByte(t.Part(pos))`
      and `p[k]` is `FirstByte(p[k..])`. */
  function FirstByte(p: seq<Byte>): Byte
  {
    if |p| > 0 then p[0] else NUL
  }

  /** `twodig(p, k)`: two bytes read as digits by subtracting `'0'` from each
      (signed) `char`, with no check that they are digits. */
  function TwoDig(p: seq<Byte>, k: nat): (v: int)
    requires k + 1 <= |p|
    ensures k + 2 <= |p| && IsDigits(p[k..k + 2]) ==> 0 <= v <= 99 && v == DecimalValue(p[k..k + 2])
  {
    TwoDigitsValue(p, k);
    10 * (Signed(FirstByte(p[k..]) as int) - '0' as int) + (Signed(FirstByte(p[k + 1..]) as int) - '0' as int)
  }

  lemma TwoDigitsValue(p: seq<Byte>, k: nat)
    ensures k + 2 <= |p| && IsDigits(p[k..k + 2]) ==>
      DecimalValue(p[k..k + 2]) == 10 * (p[k] as int - '0' as int) + (p[k + 1] as int - '0' as int)
  {
    if k + 2 <= |p| && IsDigits(p[k..k + 2]) {
      assert p[k..k + 2][..1] == [p[k]];
    }
  }

  /** `available(pos)`: the part holds at least one byte. Parts come from a
      C string, so this is the source's test that the first byte is not the
      terminator. */
  predicate Available(t: Tokens, pos: nat)
    requires pos <= t.NParts()
    ensures NUL !in t.Part(pos) ==> (Available(t, pos) <==> FirstByte(t.Part(pos)) != NUL)
  {
    |t.Part(pos)| > 0
  }

  /** `makeInt(pos)`: `atoi` of the part. A digit-only part gives its decimal
      value, and an empty part gives 0, not the `-1` of `safeInt`. */
  function MakeInt(t: Tokens, pos: nat): (r: int)
    requires pos <= t.NParts()
    ensures IsDigits(t.Part(pos)) && Available(t, pos) ==> r == DecimalValue(t.Part(pos))
    ensures !Available(t, pos) ==> r == 0
  {
    Atoi(t.Part(pos))
  }

  /** `makeFloat(pos)`: `atof` of the part, which is never the `-1` sentinel,
      an empty part included. */
  function MakeFloat(t: Tokens, pos: nat): (r: Float)
    requires pos <= t.NParts()
    ensures r != MinusOne && r.text == t.Part(pos)
  {
    Atof(t.Part(pos))
  }

  /** `safeInt(pos)`: `-1` for an empty part, otherwise `atoi` of it. On a
      digit-only part, `-1` comes back exactly when the part is empty, and the
      part's decimal value otherwise. */
  function SafeInt(t: Tokens, pos: nat): (r: int)
    requires pos <= t.NParts()
    ensures IsDigits(t.Part(pos)) ==> (r == -1 <==> !Available(t, pos))
    ensures IsDigits(t.Part(pos)) && Available(t, pos) ==> r == DecimalValue(t.Part(pos))
  {
    if Available(t, pos) then MakeInt(t, pos) else -1
  }

  /** `safeFloat(pos)`: the `-1` sentinel exactly for an empty part, and the
      part's `atof` otherwise. */
  function SafeFloat(t: Tokens, pos: nat): (r: Float)
    requires pos <= t.NParts()
    ensures r == MinusOne <==> !Available(t, pos)
    ensures r != MinusOne ==> r.text == t.Part(pos)
  {
    if Available(t, pos) then MakeFloat(t, pos) else MinusOne
  }

  /** A hemisphere letter for south or west leads the text. */
  predicate SouthOrWest(p: seq<Byte>)
  {
    |p| > 0 && (p[0] == 'S' || p[0] == 'W')
  }

  /** `hemiSign(pos)`: `-1` when the part starts with `S` or `W`, `+1` for
      anything else, an empty part included. */
  function HemiSign(t: Tokens, pos: nat): (s: int)
    requires pos <= t.NParts()
    ensures s == 1 || s == -1
    ensures s == -1 <==> SouthOrWest(t.Part(pos))
  {
    var hemi := FirstByte(t.Part(pos));
    if hemi == 'S' || hemi == 'W' then -1 else 1
  }

  /** The three two-digit groups of a six-digit text are its decimal value in
      base 100. */
  lemma SixDigits(p: seq<Byte>)
    ensures |p| >= 6 && IsDigits(p[..6]) ==>
      && IsDigits(p[0..2]) && IsDigits(p[2..4]) && IsDigits(p[4..6])
      && DecimalValue(p[..6]) == 10000 * DecimalValue(p[0..2]) + 100 * DecimalValue(p[2..4]) + DecimalValue(p[4..6])
  {
    if |p| >= 6 && IsDigits(p[..6]) {
      assert p[..4] == p[0..2] + p[2..4];
      assert p[..6] == p[..4] + p[4..6];
      DecimalValueAppend(p[0..2], p[2..4]);
      DecimalValueAppend(p[..4], p[4..6]);
    }
  }

  /** `makeTime(t, pos)`: hours, minutes and seconds from the two-digit groups
      at offsets 0, 2 and 4. The part must hold at least five bytes so that
      every byte read is the part's own or its terminator. For six leading
      digits each component lies in 0..99 and together they spell the digits'
      value. */
  function MakeTime(t: Tokens, pos: nat): (r: Time)
    requires pos <= t.NParts() && |t.Part(pos)| >= 5
    ensures var p := t.Part(pos); |p| >= 6 && IsDigits(p[..6]) ==>
      && 0 <= r.hours <= 99 && 0 <= r.minutes <= 99 && 0 <= r.seconds <= 99
      && 10000 * r.hours + 100 * r.minutes + r.seconds == DecimalValue(p[..6])
  {
    var p := t.Part(pos);
    SixDigits(p);
    Time(TwoDig(p, 0), TwoDig(p, 2), TwoDig(p, 4))
  }

  /** `makeDate(d, pos)`: day, month and year from the two-digit groups at
      offsets 0, 2 and 4, with the same reading and the same guarantee as
      `MakeTime`. */
  function MakeDate(t: Tokens, pos: nat): (r: Date)
    requires pos <= t.NParts() && |t.Part(pos)| >= 5
    ensures var p := t.Part(pos); |p| >= 6 && IsDigits(p[..6]) ==>
      && 0 <= r.day <= 99 && 0 <= r.month <= 99 && 0 <= r.year <= 99
      && 10000 * r.day + 100 * r.month + r.year == DecimalValue(p[..6])
  {
    var p := t.Part(pos);
    SixDigits(p);
    Date(TwoDig(p, 0), TwoDig(p, 2), TwoDig(p, 4))
  }

  /** What `makeCoordinate` needs of its part: a `.` (else `strchr` returns
      NULL and the source writes through it) and fewer than 20 bytes (else
      `strcpy` overruns `tmp[20]`). */
  predicate CoordinateText(p: seq<Byte>)
  {
    '.' in p && |p| < 20
  }

  /** For digit-only text on both sides of the `.`, the whole minutes are the
      last two digits of the prefix and the fraction lies in [0, 1). */
  lemma CoordinateParts(prefix: seq<Byte>, suffix: seq<Byte>)
    ensures IsDigits(prefix) && IsDigits(suffix) ==>
      var whole := CMod(Atoi(prefix), 100);
      var fraction := Atoi(suffix) as real / Pow10(|suffix|) as real;
      && Atoi(prefix) == DecimalValue(prefix)
      && 0 <= whole < 100 && 0.0 <= fraction < 1.0
      && (whole as real + fraction).Floor == whole
      && fraction == DecimalValue(suffix) as real / Pow10(|suffix|) as real
  {
    if IsDigits(prefix) && IsDigits(suffix) {
      var a := Atoi(prefix);
      assert a == DecimalValue(prefix) && a >= 0;
      var b := Atoi(suffix);
      assert b == DecimalValue(suffix);
      var scale := Pow10(|suffix|);
      assert 0 <= b < scale;
      var fraction := b as real / scale as real;
      FractionBelowOne(b, scale);
      var whole := CMod(a, 100);
      assert 0 <= whole < 100;
      WholeFloor(whole, fraction);
    }
  }

  lemma FractionBelowOne(b: int, scale: int)
    requires 0 <= b < scale
    ensures 0.0 <= b as real / scale as real < 1.0
  {
  }

  lemma WholeFloor(n: int, f: real)
    requires 0.0 <= f < 1.0
    ensures (n as real + f).Floor == n
  {
  }

  /** `makeCoordinate(c, pos)`: the part is cut at its first `.`; the number
      before it is `degrees * 100 + whole minutes`, the digits after it are
      the fraction of a minute; the sign comes from the hemisphere letter in
      part `pos + 1`. For digit-only text the degrees are the prefix's value
      without its last two digits, the minutes lie in [0, 100) with those two
      digits as their whole part and the suffix, read as a decimal fraction,
      as the rest. */
  function MakeCoordinate(t: Tokens, pos: nat): (c: Coordinate)
    requires pos + 1 <= t.NParts() && CoordinateText(t.Part(pos))
    ensures c.sign == HemiSign(t, pos + 1)
    ensures var p := t.Part(pos); var dot := Find(p, '.');
      IsDigits(p[..dot]) && IsDigits(p[dot + 1..]) ==>
      && c.degrees >= 0
      && 0.0 <= c.minutes < 100.0
      && 100 * c.degrees + c.minutes.Floor == DecimalValue(p[..dot])
      && c.minutes - c.minutes.Floor as real == DecimalValue(p[dot + 1..]) as real / Pow10(|p[dot + 1..]|) as real
  {
    var p := t.Part(pos);
    var dot := Find(p, '.');
    var prefix := p[..dot];
    var suffix := p[dot + 1..];
    var degmin := Atoi(prefix);
    var fraction := Atoi(suffix) as real / Pow10(|suffix|) as real;
    var whole := CMod(degmin, 100);
    CoordinateParts(prefix, suffix);
    Coordinate(HemiSign(t, pos + 1), CDiv(degmin, 100), whole as real + fraction)
  }

  /** A coordinate written as digits, `.`, digits: the degrees are the
      prefix's value divided by 100, and the minutes are its remainder plus
      the suffix read as a decimal fraction. */
  lemma {:induction false} CoordinateOf(t: Tokens, pos: nat, prefix: seq<Byte>, suffix: seq<Byte>)
    requires pos + 1 <= t.NParts()
    requires t.Part(pos) == prefix + ['.'] + suffix && |t.Part(pos)| < 20
    requires IsDigits(prefix) && IsDigits(suffix)
    ensures CoordinateText(t.Part(pos))
    ensures MakeCoordinate(t, pos) == Coordinate(HemiSign(t, pos + 1), DecimalValue(prefix) / 100,
      (DecimalValue(prefix) % 100) as real + DecimalValue(suffix) as real / Pow10(|suffix|) as real)
  {
    var p := t.Part(pos);
    assert p[|prefix|] == '.';
    assert '.' !in prefix;
    FindFirst(p, '.', |prefix|);
    assert p[..|prefix|] == prefix && p[|prefix| + 1..] == suffix;
    CoordinateParts(prefix, suffix);
  }

  /** `makeHeight(h, pos)`: the value is `atof` of the part and the unit is the
      first byte of the part after it. */
  function MakeHeight(t: Tokens, pos: nat): (h: Height)
    requires pos + 1 <= t.NParts()
    ensures h.value == Atof(t.Part(pos))
    ensures h.units == FirstByte(t.Part(pos + 1))
    ensures Available(t, pos + 1) ==> h.units == t.Part(pos + 1)[0]
  {
    Height(MakeFloat(t, pos), FirstByte(t.Part(pos + 1)))
  }

  /** A part's own text: the last part also carries the `*HH` checksum (and
      whatever line end is left), which belong to no field. */
  function OwnText(p: seq<Byte>): (r: seq<Byte>)
    ensures r <= p && '*' !in r
    ensures |r| < |p| ==> p[|r|] == '*'
  {
    p[..Find(p, '*')]
  }

  /** `atoi` of a part reads its own text when that is a number. */
  lemma AtoiOwn(p: seq<Byte>)
    ensures var own := OwnText(p); IsDigits(own) && |own| > 0 ==> Atoi(p) == DecimalValue(own)
  {
    var own := OwnText(p);
    if |own| > 0 && IsDigits(own) {
      assert p == own + p[|own|..];
      AtoiStops(own, p[|own|..]);
    }
  }

  /** The text a part contributes as a field: the part itself, except for
      the trailing part, whose `*HH` checksum and any line end left belong to no
      field. */
  function FieldText(t: Tokens, pos: nat): (r: seq<Byte>)
    requires pos <= t.NParts()
    ensures r <= t.Part(pos)
    ensures pos < t.NParts() ==> r == t.Part(pos)
    ensures pos == t.NParts() ==> '*' !in r && (|r| < |t.Part(pos)| ==> t.Part(pos)[|r|] == '*')
  {
    if pos < t.NParts() then t.Part(pos) else OwnText(t.Part(pos))
  }

  /** The safe integer reader judged on the field's text: `-1` exactly when
      that text is empty, its decimal value when it is a number. */
  function SafeIntField(t: Tokens, pos: nat): (r: int)
    requires pos <= t.NParts()
    ensures IsDigits(FieldText(t, pos)) ==> (r == -1 <==> |FieldText(t, pos)| == 0)
    ensures var f := FieldText(t, pos); IsDigits(f) && |f| > 0 ==> r == DecimalValue(f)
  {
    var p := t.Part(pos);
    AtoiOwn(p);
    if |FieldText(t, pos)| > 0 then MakeInt(t, pos) else -1
  }
}

=== FILE: parser.dfy ===
/** `NMEA_Parser::parse(char)`: the byte-at-a-time sentence assembler. Bytes
    other than `$` are stored in `msg[200]`; a `$` ends the stored message,
    which is then screened (`GP` prefix, checksum), dispatched on its
    identifier, decoded and handed to the matching handler. Handlers are
    no-ops to be overridden, so a handler call is modelled as the `Handled`
    outcome of the step that makes it. */
module Parser {
  import opened Wrappers
  import opened Text
  import opened Checksum
  import opened Tokenizer
  import opened Sentences

  /** Size of `msg[200]`. */
  const Capacity: nat := 200

  /** The assembler's state: the bytes stored since the last `$` (`msg` up to
      `pmsg`), and whether a byte has arrived with `msg` already full. */
  datatype Parser = Parser(buf: seq<Byte>, overflowed: bool)
  {
    predicate Valid()
    {
      |buf| <= Capacity && (overflowed ==> |buf| == Capacity)
    }
  }

  /** The constructor's state: `pmsg = msg`. */
  const Start: Parser := Parser([], false)

  /** What one byte does to the stored message. */
  datatype Event =
    | Stored                   // the byte is appended to the message
    | Dropped                  // the byte no longer fits in `msg`
    | Overrun                  // a `$` ends a message that lost bytes
    | Empty                    // a `$` arrives with no message stored
    | Ended(buf: seq<Byte>)    // a `$` ends the stored bytes `buf`

  /** What a `$` does with the stored message. The source writes `msg[-1]`
      for a `$` with nothing stored, stores past `msg[200]`, reads past the
      message when it has no `*`, compares an unset number when `%x` converts
      nothing, and writes or reads outside `parts[20][30]`; each of these is
      modelled as a defined drop with no handler call. */
  datatype Outcome =
    | Ignored                     // no message was ended, or it was lost
    | Foreign                     // a message not starting with `GP`
    | Rejected(verdict: Verdict)  // a message failing the checksum test
    | Unknown                     // a message of none of the six kinds
    | Unreadable(kind: Kind)      // a message its decoder cannot read
    | Handled(sentence: Sentence) // a decoded sentence passed to its handler

  /** The terminated message: `*(--pmsg) = 0` overwrites the last stored byte
      and the C string ends at the first NUL. On a line ending in CR LF the
      overwritten byte is the line feed, so the carriage return stays at the
      end of the message; on a line framed by `make_nmea` it is the carriage
      return. */
  function Message(buf: seq<Byte>): (m: seq<Byte>)
    requires |buf| > 0
    ensures m <= buf[..|buf| - 1] && NUL !in m
    ensures |m| < |buf| - 1 ==> buf[|m|] == NUL
  {
    CStr(buf[..|buf| - 1])
  }

  /** `!strncmp(msg, "GP", 2)`. Every identifier `parse` dispatches on
      starts with `GP`, so this screen never turns away one of the six
      kinds. */
  predicate FromGps(m: seq<Byte>)
    ensures KindOf(m).Some? ==> FromGps(m)
  {
    |m| >= 2 && m[..2] == "GP"
  }

  /** A message `parse` goes on to dispatch: a `GP` identifier and a checksum
      that matches. */
  predicate Accepted(m: seq<Byte>)
  {
    FromGps(m) && Verify(m) == Valid
  }

  /** Dispatch and decoding of an accepted message. */
  function Classify(m: seq<Byte>): (o: Outcome)
    ensures o.Handled? <==> KindOf(m).Some? && Decodes(KindOf(m).value, m)
    ensures o.Handled? ==> KindOf(m) == Some(o.sentence.Tag())
    ensures o.Handled? ==> o.sentence == Decode(KindOf(m).value, Tokenize(m).value)
    ensures o == Unknown <==> KindOf(m) == None
  {
    match KindOf(m)
    case None => Unknown
    case Some(k) =>
      match Tokenize(m)
      case None => Unreadable(k)
      case Some(t) =>
        if Readable(k, t) then
          DecodeTag(k, t);
          Handled(Decode(k, t))
        else Unreadable(k)
  }

  /** The message tokenizes within `parts[20][30]` and its kind's decoder can
      read the tokens. */
  predicate Decodes(k: Kind, m: seq<Byte>)
  {
    Tokenize(m).Some? && Readable(k, Tokenize(m).value)
  }

  /** What a `$` does with the stored bytes. */
  function Process(buf: seq<Byte>): (o: Outcome)
    requires |buf| > 0
    ensures o.Handled? ==> Accepted(Message(buf)) && KindOf(Message(buf)) == Some(o.sentence.Tag())
    ensures o == Foreign <==> !FromGps(Message(buf))
    ensures o.Rejected? <==> FromGps(Message(buf)) && Verify(Message(buf)) != Valid
  {
    var m := Message(buf);
    if !FromGps(m) then Foreign
    else
      var v := Verify(m);
      if v != Valid then Rejected(v) else Classify(m)
  }

  /** The storing half of `parse(c)`: a `$` ends the stored message and
      starts a new one; any other byte is appended while `msg` has room. */
  function Step(p: Parser, c: Byte): (r: (Parser, Event))
    requires p.Valid()
    ensures r.0.Valid()
    ensures c == '$' <==> r.0 == Start && !r.1.Stored? && !r.1.Dropped?
    ensures c != '$' ==> p.buf <= r.0.buf && |r.0.buf| <= |p.buf| + 1
    ensures c != '$' ==> (r.0.overflowed <==> p.overflowed || |p.buf| == Capacity)
    ensures c != '$' ==> (r.1 == Stored <==> r.0.buf == p.buf + [c])
    ensures c != '$' ==> (r.1 == Stored <==> |p.buf| < Capacity)
    ensures c != '$' && |p.buf| == Capacity ==> r == (Parser(p.buf, true), Dropped)
    ensures r.1.Ended? <==> c == '$' && !p.overflowed && |p.buf| > 0
    ensures r.1.Ended? ==> r.1.buf == p.buf
  {
    if c == '$' then
      if p.overflowed then (Start, Overrun)
      else if |p.buf| == 0 then (Start, Empty)
      else (Start, Ended(p.buf))
    else if |p.buf| < Capacity then (Parser(p.buf + [c], p.overflowed), Stored)
    else (Parser(p.buf, true), Dropped)
  }

  /** What follows an event: only an ended message is screened and
      dispatched. */
  function Respond(e: Event): (o: Outcome)
    ensures !e.Ended? ==> o == Ignored
    ensures e.Ended? && |e.buf| > 0 ==> o == Process(e.buf)
  {
    if e.Ended? && |e.buf| > 0 then Process(e.buf) else Ignored
  }

  /** `parse(c)`, both halves. Only a `$` can hand a sentence to a handler,
      and only one whose message carries a `GP` identifier, a matching
      checksum and the sentence's own identifier. */
  function Parse(p: Parser, c: Byte): (r: (Parser, Outcome))
    requires p.Valid()
    ensures r.0.Valid() && (c == '$' ==> r.0 == Start)
    ensures r.1.Handled? ==>
      && c == '$' && !p.overflowed && |p.buf| > 0
      && Accepted(Message(p.buf))
      && KindOf(Message(p.buf)) == Some(r.1.sentence.Tag())
  {
    var s := Step(p, c);
    (s.0, Respond(s.1))
  }

  /** A `$` after an intact, non-empty message hands a sentence to a handler
      exactly when the message is accepted, names one of the six kinds and
      decodes; the sentence is the decoder's reading of the message. */
  lemma StepHandles(p: Parser)
    requires p.Valid() && !p.overflowed && |p.buf| > 0
    ensures var m := Message(p.buf);
      Parse(p, '$').1.Handled? <==>
        Accepted(m) && KindOf(m).Some? && Decodes(KindOf(m).value, m)
    ensures var m := Message(p.buf);
      Parse(p, '$').1.Handled? ==> Parse(p, '$').1.sentence == Decode(KindOf(m).value, Tokenize(m).value)
  {
  }

  /** The assembler fed a byte stream: the final state and one event per
      byte. */
  function Run(p: Parser, cs: seq<Byte>): (r: (Parser, seq<Event>))
    requires p.Valid()
    ensures r.0.Valid() && |r.1| == |cs|
  {
    if |cs| == 0 then (p, [])
    else
      var prev := Run(p, cs[..|cs| - 1]);
      var next := Step(prev.0, cs[|cs| - 1]);
      (next.0, prev.1 + [next.1])
  }

  /** The sentences handed to handlers, in order, for a run's events. Only a
      `$` that ends a stored message calls a handler. */
  function HandledSentences(events: seq<Event>): (ss: seq<Sentence>)
    ensures |ss| <= |events|
    ensures (forall i :: 0 <= i < |events| ==> !events[i].Ended?) ==> ss == []
  {
    if |events| == 0 then []
    else
      var init := HandledSentences(events[..|events| - 1]);
      match Respond(events[|events| - 1])
      case Handled(s) => init + [s]
      case _ => init
  }

  /** Feeding a stream in two pieces is feeding it at once. */
  lemma {:induction false} RunAppend(p: Parser, a: seq<Byte>, b: seq<Byte>)
    requires p.Valid()
    ensures Run(p, a + b) == (Run(Run(p, a).0, b).0, Run(p, a).1 + Run(Run(p, a).0, b).1)
  {
    if |b| == 0 {
      assert a + b == a;
      assert Run(p, a).1 + [] == Run(p, a).1;
    } else {
      var b' := b[..|b| - 1];
      var c := b[|b| - 1];
      assert (a + b)[..|a + b| - 1] == a + b';
      RunAppend(p, a, b');
      var q := Run(p, a).0;
      var mid := Run(q, b');
      var next := Step(mid.0, c);
      assert Run(p, a + b) == (next.0, (Run(p, a).1 + mid.1) + [next.1]);
      assert Run(q, b) == (next.0, mid.1 + [next.1]);
      assert (Run(p, a).1 + mid.1) + [next.1] == Run(p, a).1 + (mid.1 + [next.1]);
    }
  }

  /** Without a `$`, bytes that fit are stored in order and nothing reaches a
      handler. */
  lemma {:induction false} RunStores(p: Parser, cs: seq<Byte>)
    requires p.Valid() && !p.overflowed
    requires '$' !in cs && |p.buf| + |cs| <= Capacity
    ensures Run(p, cs).0 == Parser(p.buf + cs, false)
    ensures forall i :: 0 <= i < |cs| ==> Run(p, cs).1[i] == Stored
    ensures HandledSentences(Run(p, cs).1) == []
  {
    if |cs| > 0 {
      var cs' := cs[..|cs| - 1];
      RunStores(p, cs');
      assert p.buf + cs' + [cs[|cs| - 1]] == p.buf + cs;
    }
  }

  /** A line after a `$` and followed by the next `$` reaches the assembler
      intact, whatever state it was in, when it holds no `$` and fits in
      `msg`: the second `$` ends exactly the line's bytes. */
  lemma LineDelivered(p: Parser, line: seq<Byte>)
    requires p.Valid()
    requires '$' !in line && 0 < |line| <= Capacity
    ensures Run(p, ['$'] + line + ['$']) == (Start, Run(p, ['$'] + line).1 + [Ended(line)])
  {
    RestartStores(p, line);
    RunAppend(p, ['$'] + line, ['$']);
    assert ['$'][..0] == [];
    assert Run(Parser(line, false), ['$']).1 == [Ended(line)];
  }

  /** Round trip through the assembler: the message of a `GP` line framed by
      `make_nmea` is the payload with its checksum digits, it passes the
      screening, and only its identifier and fields decide what happens to
      it. */
  lemma FrameAccepted(payload: seq<Byte>)
    requires NUL !in payload && '*' !in payload
    requires FromGps(payload)
    ensures var m := Stamped(payload);
      && Message(m + ['\r']) == m
      && Accepted(m)
      && Respond(Ended(m + ['\r'])) == Classify(m)
  {
    var m := Stamped(payload);
    StampedGps(payload);
    FrameMessage(payload);
    assert Accepted(m);
    LineAccepted(m);
  }

  /** A `GP` identifier stays one when the checksum is appended. */
  lemma StampedGps(payload: seq<Byte>)
    requires FromGps(payload)
    ensures FromGps(Stamped(payload))
  {
    assert Stamped(payload)[..2] == payload[..2];
  }

  /** An accepted message whose line ended in one more byte is dispatched. */
  lemma LineAccepted(m: seq<Byte>)
    requires Message(m + ['\r']) == m && Accepted(m)
    ensures Respond(Ended(m + ['\r'])) == Classify(m)
  {
  }

  /** The framed line's message, once its carriage return is overwritten, is
      the payload and its checksum digits, and it passes the checksum test. */
  lemma FrameMessage(payload: seq<Byte>)
    requires NUL !in payload && '*' !in payload
    ensures var m := Stamped(payload);
      Message(m + ['\r']) == m && Verify(m) == Valid
  {
    var m := Stamped(payload);
    StampedVerifies(payload);
    assert (m + ['\r'])[..|m|] == m;
  }

  /** The bytes after the `$` of a framed line hold no further `$`, so
      `LineDelivered` applies to them. */
  lemma FrameBody(payload: seq<Byte>)
    requires NUL !in payload && '$' !in payload
    ensures var body := Stamped(payload) + ['\r'];
      Frame(payload) == ['$'] + body && '$' !in body
  {
    var digits := CheckDigits(payload);
    HexNoDollar(digits);
    assert Stamped(payload) == payload + ['*'] + digits;
    assert '$' !in Stamped(payload);
  }

  /** End to end: a `GP` line framed by `make_nmea` and followed by the next
      `$` reaches the assembler intact from any state, passes the screening,
      and is dispatched on its own identifier and fields, provided the line
      after its `$` fits in `msg`. */
  lemma FrameDelivered(p: Parser, payload: seq<Byte>)
    requires p.Valid()
    requires NUL !in payload && '*' !in payload && '$' !in payload
    requires FromGps(payload)
    requires |Frame(payload)| <= Capacity + 1
    ensures var m := Stamped(payload);
      && Run(p, Frame(payload) + ['$']) == (Start, Run(p, Frame(payload)).1 + [Ended(m + ['\r'])])
      && Accepted(m)
      && Respond(Ended(m + ['\r'])) == Classify(m)
  {
    var body := Stamped(payload) + ['\r'];
    FrameBody(payload);
    assert Frame(payload) + ['$'] == ['$'] + body + ['$'];
    LineDelivered(p, body);
    FrameAccepted(payload);
  }

  /** A `$` followed by bytes that fit restarts the message with exactly
      those bytes, from any state. */
  lemma RestartStores(p: Parser, body: seq<Byte>)
    requires p.Valid()
    requires '$' !in body && |body| <= Capacity
    ensures Run(p, ['$'] + body).0 == Parser(body, false)
  {
    RunAppend(p, ['$'], body);
    assert ['$'][..0] == [];
    assert Run(p, ['$']).0 == Start;
    RunStores(Start, body);
  }

  lemma HexNoDollar(digits: seq<char>)
    requires IsUpperHex(digits)
    ensures '$' !in digits
  {
    if '$' in digits {
      assert false;
    }
  }
}

=== FILE: samples.dfy ===
/** Worked sentences: the tokenizer on empty fields, a GSV sentence whose
    only satellite reports no SNR, and the usual GGA fix example. */
module Samples {
  import opened Wrappers
  import opened Text
  import opened Tokenizer
  import opened Fields
  import opened Sentences

  /** Empty fields are kept: `1,,3` is three segments, the middle one
      empty. */
  lemma EmptyFieldsKept()
    ensures Split("1,,3") == ["1", "", "3"]
  {
    JoinSplit(["1", "", "3"]);
    assert Join(["1", "", "3"]) == "1,,3" by {
      assert ["1", "", "3"][..2] == ["1", ""];
      assert ["1", ""][..1] == ["1"];
    }
  }

  /** `GPGSV,1,1,01,25,15,167,*4B` as the tokenizer leaves it: one satellite,
      PRN 25 at elevation 15 and azimuth 167, with an empty SNR field. */
  const NoSnr: Tokens := Tokens(["GPGSV", "1", "1", "01", "25", "15", "167"], "*4B")

  /** As written, `parse` reports the missing SNR as 0; the corrected decoder
      reports the `-1` sentinel. */
  lemma NoSnrDecodes()
    ensures GsvReadable(NoSnr) && GroupCount(NoSnr) == 1
    ensures Decode(GSV, NoSnr).svs[0].snr == 0
    ensures DecodeGsvCorrected(NoSnr).svs[0].snr == -1
  {
    TrailingSnrAsWritten(NoSnr, 1);
  }

  /** The sample is what the tokenizer makes of its own text. */
  lemma NoSnrTokenizes()
    ensures Tokenize(Join(NoSnr.fields + [NoSnr.rest])) == Some(NoSnr)
  {
    TokenizeJoin(NoSnr);
  }

  /** `GPGGA,123519,4807.038,N,01131.000,E,1,08,0.9,545.4,M,46.9,M,,*47` as
      the tokenizer leaves it: fourteen counted parts, the last one empty, and
      `*47` after the last comma. */
  const Fix: Tokens := Tokens(["GPGGA", "123519", "4807.038", "N", "01131.000", "E", "1", "08",
                               "0.9", "545.4", "M", "46.9", "M", ""], "*47")

  /** That sample is what the tokenizer makes of its own text. */
  lemma FixTokenizes()
    ensures Tokenize(Join(Fix.fields + [Fix.rest])) == Some(Fix)
  {
    TokenizeJoin(Fix);
  }

  /** The sample meets what `FixDecodes` asks of its tokens, so the decoder
      reads the tokenizer's own output as the fix described there. */
  lemma FixSampleDecodes()
    ensures GgaReadable(Fix)
    ensures Decode(GGA, Fix).time == Time(12, 35, 19)
    ensures Decode(GGA, Fix).latitude == Coordinate(1, 48, 7.038)
    ensures Decode(GGA, Fix).numSatellites == 8
  {
    var t := Fix;
    assert t.NParts() == 14;
    assert t.Part(1) == "123519" && t.Part(2) == "4807.038" && t.Part(3) == "N";
    assert t.Part(4) == "01131.000" && t.Part(5) == "E" && t.Part(6) == "1";
    assert t.Part(7) == "08" && t.Part(8) == "0.9" && t.Part(9) == "545.4";
    assert t.Part(10) == "M" && t.Part(11) == "46.9" && t.Part(12) == "M";
    FixDecodes(t);
  }

  /** The GGA example `GPGGA,123519,4807.038,N,01131.000,E,1,08,0.9,545.4,M,46.9,M,,*47`
      given as the parts the tokenizer makes of it: a fix at
      12:35:19 UTC, 48 degrees 7.038 minutes north, 11 degrees 31 minutes east,
      GPS fix quality 1, 8 satellites, 545.4 metres above mean sea level and a
      geoid separation of 46.9 metres. The decoder reads every field as that. */
  lemma FixDecodes(t: Tokens)
    requires t.NParts() == 14
    requires t.Part(1) == "123519"
    requires t.Part(2) == "4807.038" && t.Part(3) == "N"
    requires t.Part(4) == "01131.000" && t.Part(5) == "E"
    requires t.Part(6) == "1" && t.Part(7) == "08" && t.Part(8) == "0.9"
    requires t.Part(9) == "545.4" && t.Part(10) == "M"
    requires t.Part(11) == "46.9" && t.Part(12) == "M"
    ensures GgaReadable(t)
    ensures var s := Decode(GGA, t);
      && s.time == Time(12, 35, 19)
      && s.latitude == Coordinate(1, 48, 7.038)
      && s.longitude == Coordinate(1, 11, 31.0)
      && s.fixQuality == 1 && s.numSatellites == 8
      && s.hdop == Atof("0.9")
      && s.altitude == Height(Atof("545.4"), 'M')
      && s.geoid == Height(Atof("46.9"), 'M')
  {
    FixTime(t);
    FixLatitude(t);
    FixLongitude(t);
    FixCount(t);
    assert FixQuality(t.Part(6)) == 1;
  }

  lemma FixTime(t: Tokens)
    requires t.NParts() >= 1 && t.Part(1) == "123519"
    ensures MakeTime(t, 1) == Time(12, 35, 19)
  {
  }

  lemma FixLatitude(t: Tokens)
    requires t.NParts() >= 3 && t.Part(2) == "4807.038" && t.Part(3) == "N"
    ensures CoordinateText(t.Part(2)) && MakeCoordinate(t, 2) == Coordinate(1, 48, 7.038)
  {
    var prefix: seq<Byte>, suffix: seq<Byte> := "4807", "038";
    assert t.Part(2) == prefix + ['.'] + suffix;
    Value4807(prefix);
    Value038(suffix);
    CoordinateOf(t, 2, prefix, suffix);
    North(t, 3);
  }

  lemma FixLongitude(t: Tokens)
    requires t.NParts() >= 5 && t.Part(4) == "01131.000" && t.Part(5) == "E"
    ensures CoordinateText(t.Part(4)) && MakeCoordinate(t, 4) == Coordinate(1, 11, 31.0)
  {
    var prefix: seq<Byte>, suffix: seq<Byte> := "01131", "000";
    assert t.Part(4) == prefix + ['.'] + suffix;
    Value01131(prefix);
    Value000(suffix);
    CoordinateOf(t, 4, prefix, suffix);
    North(t, 5);
  }

  lemma FixCount(t: Tokens)
    requires t.NParts() >= 7 && t.Part(7) == "08"
    ensures MakeInt(t, 7) == 8
  {
    assert DecimalValue("08") == 8 by {
      assert "08"[..1] == "0" && "0"[..0] == "";
    }
  }

  /** Neither `N` nor `E` turns the sign. */
  lemma North(t: Tokens, pos: nat)
    requires pos <= t.NParts() && (t.Part(pos) == "N" || t.Part(pos) == "E")
    ensures HemiSign(t, pos) == 1
  {
  }

  lemma Value4807(s: seq<char>)
    requires s == "4807"
    ensures IsDigits(s) && DecimalValue(s) / 100 == 48 && DecimalValue(s) % 100 == 7
  {
    assert s[..3] == "480" && "480"[..2] == "48" && "48"[..1] == "4" && "4"[..0] == "";
  }

  lemma Value038(s: seq<char>)
    requires s == "038"
    ensures IsDigits(s) && DecimalValue(s) as real / Pow10(|s|) as real == 0.038
  {
    assert s[..2] == "03" && "03"[..1] == "0" && "0"[..0] == "";
    assert Pow10(3) == 1000;
  }

  lemma Value01131(s: seq<char>)
    requires s == "01131"
    ensures IsDigits(s) && DecimalValue(s) / 100 == 11 && DecimalValue(s) % 100 == 31
  {
    assert s[..4] == "0113" && "0113"[..3] == "011" && "011"[..2] == "01";
    assert "01"[..1] == "0" && "0"[..0] == "";
  }

  lemma Value000(s: seq<char>)
    requires s == "000"
    ensures IsDigits(s) && DecimalValue(s) as real / Pow10(|s|) as real == 0.0
  {
    assert s[..2] == "00" && "00"[..1] == "0" && "0"[..0] == "";
    assert Pow10(3) == 1000;
  }

  /** `twodig` checks nothing: `0:` reads as 10 and `-1` as -29. */
  lemma TwoDigUnchecked()
    ensures TwoDig("0:", 0) == 10
    ensures TwoDig("-1", 0) == -29
  {
  }
}

=== FILE: sentences.dfy ===
/** The six sentence decoders (`GPGGA_Message` … `GPVTG_Message`): each reads
    fixed part positions of the tokenized message with the scalar decoders.
    A decoder is only applied to tokens it can read without touching a part
    the tokenizer never wrote or tripping an undefined scalar read; what that
    takes is spelled out per sentence as a `…Readable` predicate. */
module Sentences {
  import opened Wrappers
  import opened Text
  import opened Tokenizer
  import opened Fields

  /** The sentence kinds the assembler dispatches. */
  datatype Kind = GGA | GLL | GSA | GSV | RMC | VTG

  /** The five-character identifier `parse` tests for each kind. */
  function Code(k: Kind): seq<Byte>
  {
    match k
    case GGA => "GPGGA"
    case GLL => "GPGLL"
    case GSA => "GPGSA"
    case GSV => "GPGSV"
    case RMC => "GPRMC"
    case VTG => "GPVTG"
  }

  /** `ismsg(code)`, i.e. `strncmp(code, msg, 5) == 0` on a message without
      NUL: for a five-byte identifier, the message starts with it. */
  predicate IsMsg(m: seq<Byte>, code: seq<Byte>)
    ensures |code| == 5 ==> (IsMsg(m, code) <==> code <= m)
  {
    |m| >= 5 && m[..5] == code
  }

  /** The `if … else if` chain of `parse`: the kind whose identifier the
      message starts with, if any. The identifiers differ, so the order of the
      tests does not matter. */
  function KindOf(m: seq<Byte>): (r: Option<Kind>)
    ensures forall k :: r == Some(k) <==> IsMsg(m, Code(k))
  {
    if IsMsg(m, "GPGGA") then Some(GGA)
    else if IsMsg(m, "GPGLL") then Some(GLL)
    else if IsMsg(m, "GPGSA") then Some(GSA)
    else if IsMsg(m, "GPGSV") then Some(GSV)
    else if IsMsg(m, "GPRMC") then Some(RMC)
    else if IsMsg(m, "GPVTG") then Some(VTG)
    else None
  }

  /** The RMC magnetic variation: `hemiSign(11) * makeFloat(10)`. */
  datatype MagVar = MagVar(sign: int, magnitude: Float)

  /** One decoded sentence, the record handed to the matching handler. */
  datatype Sentence =
    | Gga(time: Time, latitude: Coordinate, longitude: Coordinate, fixQuality: int,
          numSatellites: int, hdop: Float, altitude: Height, geoid: Height)
    | Gll(latitude: Coordinate, longitude: Coordinate, time: Time)
    | Gsa(mode: char, fixType: int, satids: seq<int>, pdop: Float, hdop: Float, vdop: Float)
    | Gsv(nmsgs: int, msgno: int, nsats: int, svs: seq<SatelliteInView>)
    | Rmc(time: Time, warning: char, latitude: Coordinate, longitude: Coordinate,
          groundspeedKnots: Float, trackAngle: Float, date: Date, magvar: Option<MagVar>)
    | Vtg(trackMadeGoodTrue: Float, trackMadeGoodMagnetic: Float, speedKnots: Float, speedKph: Float)
  {
    /** The kind of sentence this record decodes. */
    function Tag(): Kind
    {
      if Gga? then GGA
      else if Gll? then GLL
      else if Gsa? then GSA
      else if Gsv? then GSV
      else if Rmc? then RMC
      else VTG
    }
  }

  // ---------------------------------------------------------------------
  // GGA: time 1, latitude 2-3, longitude 4-5, fix 6, satellites 7, HDOP 8,
  // altitude 9-10, geoid separation 11-12

  predicate GgaReadable(t: Tokens)
  {
    && t.Written(12)
    && |t.Part(1)| >= 5
    && CoordinateText(t.Part(2)) && CoordinateText(t.Part(4))
  }

  /** The fix quality `parts[6][0] - '0'`: a digit gives its value, and an
      empty part gives `-'0'`, that is -48. */
  function FixQuality(p: seq<Byte>): (q: int)
    ensures |p| > 0 && IsDigit(p[0]) ==> 0 <= q <= 9 && q == DecimalValue(p[..1])
    ensures |p| == 0 ==> q == -48
  {
    assert |p| > 0 ==> p[..1] == [p[0]] && [p[0]][..0] == [];
    Signed(FirstByte(p) as int) - '0' as int
  }

  /** `GPGGA_Message(msg)`: each field from its own part. */
  function DecodeGga(t: Tokens): (s: Sentence)
    requires GgaReadable(t)
    ensures s.Gga?
    ensures s.time == MakeTime(t, 1)
    ensures s.latitude == MakeCoordinate(t, 2) && s.longitude == MakeCoordinate(t, 4)
    ensures s.latitude.sign == -1 <==> SouthOrWest(t.Part(3))
    ensures s.longitude.sign == -1 <==> SouthOrWest(t.Part(5))
    ensures s.fixQuality == FixQuality(t.Part(6))
    ensures s.numSatellites == MakeInt(t, 7) && s.hdop == Atof(t.Part(8))
    ensures s.altitude == MakeHeight(t, 9) && s.geoid == MakeHeight(t, 11)
    ensures s.altitude.units == FirstByte(t.Part(10)) && s.geoid.units == FirstByte(t.Part(12))
  {
    Gga(MakeTime(t, 1), MakeCoordinate(t, 2), MakeCoordinate(t, 4),
        FixQuality(t.Part(6)),
        MakeInt(t, 7), MakeFloat(t, 8), MakeHeight(t, 9), MakeHeight(t, 11))
  }

  // ---------------------------------------------------------------------
  // GLL: latitude 1-2, longitude 3-4, time 5

  predicate GllReadable(t: Tokens)
  {
    && t.Written(5)
    && CoordinateText(t.Part(1)) && CoordinateText(t.Part(3))
    && |t.Part(5)| >= 5
  }

  /** `GPGLL_Message(msg)`. */
  function DecodeGll(t: Tokens): (s: Sentence)
    requires GllReadable(t)
    ensures s.Gll?
    ensures s.latitude == MakeCoordinate(t, 1) && s.longitude == MakeCoordinate(t, 3)
    ensures s.time == MakeTime(t, 5)
    ensures s.latitude.sign == -1 <==> SouthOrWest(t.Part(2))
    ensures s.longitude.sign == -1 <==> SouthOrWest(t.Part(4))
  {
    Gll(MakeCoordinate(t, 1), MakeCoordinate(t, 3), MakeTime(t, 5))
  }

  // ---------------------------------------------------------------------
  // GSA: mode 1, fix type 2, satellite ids 3..14, PDOP 15, HDOP 16, VDOP 17

  /** Capacity of `satids[20]`. */
  const SatIdCapacity: nat := 20

  predicate GsaReadable(t: Tokens)
  {
    t.Written(17)
  }

  /** `GPGSA_Message(msg)`: the loop over parts 3..14 always stores twelve
      ids (well inside `satids[20]`), `-1` for each empty part. */
  function DecodeGsa(t: Tokens): (s: Sentence)
    requires GsaReadable(t)
    ensures s.Gsa?
    ensures s.mode == FirstByte(t.Part(1)) && s.fixType == MakeInt(t, 2)
    ensures |s.satids| == 12 <= SatIdCapacity
    ensures s.pdop == Atof(t.Part(15)) && s.hdop == Atof(t.Part(16)) && s.vdop == Atof(t.Part(17))
  {
    Gsa(FirstByte(t.Part(1)), MakeInt(t, 2),
        Table(IdReader(t), 12),
        MakeFloat(t, 15), MakeFloat(t, 16), MakeFloat(t, 17))
  }

  /** `[f(0), ..., f(n-1)]`, the table a counting loop fills. */
  function Table<T>(f: nat --> T, n: nat): (r: seq<T>)
    requires forall i :: 0 <= i < n ==> f.requires(i)
    ensures |r| == n
  {
    if n == 0 then [] else Table(f, n - 1) + [f(n - 1)]
  }

  /** Entry `i` of a table is `f(i)`. */
  lemma {:induction false} TableAt<T>(f: nat --> T, n: nat, i: nat)
    requires forall i :: 0 <= i < n ==> f.requires(i)
    requires i < n
    ensures Table(f, n)[i] == f(i)
  {
    if i < n - 1 {
      TableAt(f, n - 1, i);
    }
  }

  /** The reading of GSA id `i`: `safeInt(i + 3)`. */
  function IdReader(t: Tokens): nat --> int
  {
    (i: nat) requires i + 3 <= t.NParts() => SafeInt(t, i + 3)
  }

  /** GSA id `i` is `safeInt` of part `i + 3`: on a part holding digits only,
      the `-1` sentinel exactly when the part is empty, and the part's
      decimal value otherwise. */
  lemma GsaIds(t: Tokens, i: nat)
    requires GsaReadable(t) && i < 12
    ensures DecodeGsa(t).satids[i] == SafeInt(t, i + 3)
    ensures IsDigits(t.Part(i + 3)) ==>
      && (DecodeGsa(t).satids[i] == -1 <==> |t.Part(i + 3)| == 0)
      && (|t.Part(i + 3)| > 0 ==> DecodeGsa(t).satids[i] == DecimalValue(t.Part(i + 3)))
  {
    GsaIdRead(t, i);
  }

  lemma GsaIdRead(t: Tokens, i: nat)
    requires GsaReadable(t) && i < 12
    ensures DecodeGsa(t).satids[i] == SafeInt(t, i + 3)
  {
    var ids := Table(IdReader(t), 12);
    assert DecodeGsa(t).satids == ids;
    TableAt(IdReader(t), 12, i);
    assert ids[i] == IdReader(t)(i) == SafeInt(t, i + 3);
  }

  // ---------------------------------------------------------------------
  // GSV: messages 1, number 2, satellites 3, then groups of four

  /** Capacity of `svs[4]`. */
  const SvsCapacity: nat := 4

  /** `ninfo = (nparts - 3) / 4`, for the `nparts >= 3` the decoder needs. */
  function GroupCount(t: Tokens): nat
    requires t.NParts() >= 3
  {
    (t.NParts() - 3) / 4
  }

  /** The header counts and every group lie in parts the tokenizer wrote,
      and there are no more groups than `svs[4]` holds. */
  predicate GsvReadable(t: Tokens)
  {
    t.NParts() >= 3 && GroupCount(t) <= SvsCapacity && t.Written(4 * GroupCount(t) + 3)
  }

  /** One satellite group starting at part `k`, as `GPGSV_Message` reads it:
      PRN, elevation and azimuth with `makeInt`, and the SNR with
      `safeInt(k+3)`, which tests the raw part (see `TrailingSnrAsWritten`). */
  function Satellite(t: Tokens, k: nat): (sv: SatelliteInView)
    requires k + 3 <= t.NParts()
    ensures sv.prn == MakeInt(t, k) && sv.elevation == MakeInt(t, k + 1)
    ensures sv.azimuth == MakeInt(t, k + 2) && sv.snr == SafeInt(t, k + 3)
    ensures IsDigits(t.Part(k)) && Available(t, k) ==> sv.prn == DecimalValue(t.Part(k))
    ensures IsDigits(t.Part(k + 3)) ==> (sv.snr == -1 <==> !Available(t, k + 3))
  {
    SatelliteInView(MakeInt(t, k), MakeInt(t, k + 1), MakeInt(t, k + 2), SafeInt(t, k + 3))
  }

  /** The same group with the SNR read from the field's own text, so that the
      `*HH` after the last field does not count as a value. The two readings
      agree on every group whose SNR is not the trailing part. */
  function SatelliteCorrected(t: Tokens, k: nat): (sv: SatelliteInView)
    requires k + 3 <= t.NParts()
    ensures sv.prn == MakeInt(t, k) && sv.elevation == MakeInt(t, k + 1)
    ensures sv.azimuth == MakeInt(t, k + 2) && sv.snr == SafeIntField(t, k + 3)
    ensures IsDigits(FieldText(t, k + 3)) ==> (sv.snr == -1 <==> |FieldText(t, k + 3)| == 0)
    ensures k + 3 < t.NParts() ==> sv == Satellite(t, k)
  {
    SatelliteInView(MakeInt(t, k), MakeInt(t, k + 1), MakeInt(t, k + 2), SafeIntField(t, k + 3))
  }

  /** `GPGSV_Message(msg)`: the three header counts from parts 1-3, then
      `(nparts - 3) / 4` groups, at most four, every part of which lies inside
      the tokens (see `GsvGroup`). This is the decoder `parse` runs. */
  function DecodeGsv(t: Tokens): (s: Sentence)
    requires GsvReadable(t)
    ensures s.Gsv?
    ensures s.nmsgs == MakeInt(t, 1) && s.msgno == MakeInt(t, 2) && s.nsats == MakeInt(t, 3)
    ensures |s.svs| == GroupCount(t) <= SvsCapacity
  {
    var ninfo := GroupCount(t);
    assert 4 * ninfo + 3 <= t.NParts();
    Gsv(MakeInt(t, 1), MakeInt(t, 2), MakeInt(t, 3), Groups(t, ninfo))
  }

  /** The GSV decoder as evidently intended: the same, with every SNR read
      from its field's own text. */
  function DecodeGsvCorrected(t: Tokens): (s: Sentence)
    requires GsvReadable(t)
    ensures s.Gsv?
    ensures s.nmsgs == MakeInt(t, 1) && s.msgno == MakeInt(t, 2) && s.nsats == MakeInt(t, 3)
    ensures |s.svs| == GroupCount(t) <= SvsCapacity
  {
    var ninfo := GroupCount(t);
    assert 4 * ninfo + 3 <= t.NParts();
    Gsv(MakeInt(t, 1), MakeInt(t, 2), MakeInt(t, 3), GroupsCorrected(t, ninfo))
  }

  /** The first `n` satellite groups, as read by the source. */
  function Groups(t: Tokens, n: nat): (svs: seq<SatelliteInView>)
    requires 4 * n + 3 <= t.NParts()
    ensures |svs| == n
  {
    if n == 0 then [] else Groups(t, n - 1) + [Satellite(t, 4 * n)]
  }

  /** The first `n` satellite groups, read by the corrected decoder. */
  function GroupsCorrected(t: Tokens, n: nat): (svs: seq<SatelliteInView>)
    requires 4 * n + 3 <= t.NParts()
    ensures |svs| == n
  {
    if n == 0 then [] else GroupsCorrected(t, n - 1) + [SatelliteCorrected(t, 4 * n)]
  }

  /** Group `j` is read from the four parts starting at `4(j+1)`. */
  lemma {:induction false} GroupsAt(t: Tokens, n: nat, j: nat)
    requires 4 * n + 3 <= t.NParts() && j < n
    ensures Groups(t, n)[j] == Satellite(t, 4 * (j + 1))
  {
    var init := Groups(t, n - 1);
    assert Groups(t, n) == init + [Satellite(t, 4 * n)];
    if j < n - 1 {
      GroupsAt(t, n - 1, j);
      assert Groups(t, n)[j] == init[j];
    } else {
      assert 4 * (j + 1) == 4 * n;
    }
  }

  /** The same for the corrected groups. */
  lemma {:induction false} GroupsCorrectedAt(t: Tokens, n: nat, j: nat)
    requires 4 * n + 3 <= t.NParts() && j < n
    ensures GroupsCorrected(t, n)[j] == SatelliteCorrected(t, 4 * (j + 1))
  {
    var init := GroupsCorrected(t, n - 1);
    assert GroupsCorrected(t, n) == init + [SatelliteCorrected(t, 4 * n)];
    if j < n - 1 {
      GroupsCorrectedAt(t, n - 1, j);
      assert GroupsCorrected(t, n)[j] == init[j];
    } else {
      assert 4 * (j + 1) == 4 * n;
    }
  }

  /** Group `j` of a decoded GSV sentence is the satellite read from parts
      `4(j+1)` to `4(j+1)+3`, all inside the tokens: PRN, elevation and
      azimuth with `makeInt`, and, as written, the SNR with `safeInt`. */
  lemma GsvGroup(t: Tokens, j: nat)
    requires GsvReadable(t) && j < GroupCount(t)
    ensures 4 * (j + 1) + 3 <= t.NParts()
    ensures DecodeGsv(t).svs[j] == Satellite(t, 4 * (j + 1))
    ensures var sv := DecodeGsv(t).svs[j]; var k := 4 * (j + 1);
      && sv.prn == MakeInt(t, k) && sv.elevation == MakeInt(t, k + 1)
      && sv.azimuth == MakeInt(t, k + 2) && sv.snr == SafeInt(t, k + 3)
    ensures DecodeGsvCorrected(t).svs[j] == SatelliteCorrected(t, 4 * (j + 1))
  {
    GroupsAt(t, GroupCount(t), j);
    GroupsCorrectedAt(t, GroupCount(t), j);
  }

  /** Tokens that fit `parts[20][30]` never hold more than four GSV groups,
      so the table bound already protects `svs[4]`; what is left for the
      decoder is that the last group's SNR part was written. */
  lemma FitsBoundsGroups(t: Tokens)
    requires Fits(t) && t.NParts() >= 3
    ensures GroupCount(t) <= SvsCapacity
    ensures GsvReadable(t) <==> t.Written(4 * GroupCount(t) + 3)
  {
  }

  /** So the source decodes every group but the last as intended. */
  lemma {:induction false} GsvAgreesBeforeLast(t: Tokens, j: nat)
    requires GsvReadable(t) && j < GroupCount(t)
    requires 4 * (j + 1) + 3 < t.NParts()
    ensures DecodeGsv(t).svs[j] == DecodeGsvCorrected(t).svs[j]
  {
    GsvGroup(t, j);
  }

  /** As written, an empty SNR in the last group of a GSV sentence comes back
      as 0: the trailing part is not empty, it still holds `*HH`, and `atoi`
      stops at the `*`. The corrected decoder gives the `-1` sentinel. */
  lemma {:induction false} TrailingSnrAsWritten(t: Tokens, n: nat)
    requires 1 <= n <= SvsCapacity && t.NParts() == 4 * n + 3
    requires |t.rest| > 0 && t.rest[0] == '*'
    ensures GsvReadable(t) && GroupCount(t) == n
    ensures DecodeGsv(t).svs[n - 1].snr == 0
    ensures DecodeGsvCorrected(t).svs[n - 1].snr == -1
  {
    assert GroupCount(t) == n;
    GsvGroup(t, n - 1);
    assert 4 * n + 3 == t.NParts();
    StarredPart(t);
  }

  /** A trailing part that is only the checksum: present for `safeInt`, empty
      as a field. */
  lemma StarredPart(t: Tokens)
    requires |t.rest| > 0 && t.rest[0] == '*'
    ensures SafeInt(t, t.NParts()) == 0
    ensures SafeIntField(t, t.NParts()) == -1
  {
  }

  /** The corrected GSV decoder: every group's SNR is the `-1` sentinel
      exactly when its field is empty, and its decimal value when it is a
      number. */
  lemma GsvSnrSentinel(t: Tokens, j: nat)
    requires GsvReadable(t) && j < GroupCount(t)
    requires IsDigits(FieldText(t, 4 * (j + 1) + 3))
    ensures var f := FieldText(t, 4 * (j + 1) + 3);
      && (DecodeGsvCorrected(t).svs[j].snr == -1 <==> |f| == 0)
      && (|f| > 0 ==> DecodeGsvCorrected(t).svs[j].snr == DecimalValue(f))
  {
    GsvGroup(t, j);
  }

  // ---------------------------------------------------------------------
  // RMC: time 1, warning 2, latitude 3-4, longitude 5-6, speed 7, track 8,
  // date 9, magnetic variation 10-11

  predicate RmcReadable(t: Tokens)
  {
    && t.Written(10)
    && (Available(t, 10) ==> t.Written(11))
    && |t.Part(1)| >= 5
    && CoordinateText(t.Part(3)) && CoordinateText(t.Part(5))
    && |t.Part(9)| >= 5
  }

  /** `GPRMC_Message(msg)`: the magnetic variation is set only when part 10 is
      non-empty, to the hemisphere sign of part 11 times part 10; otherwise it
      is left unset. The track angle is the `-1` sentinel exactly when part 8
      is empty. */
  function DecodeRmc(t: Tokens): (s: Sentence)
    requires RmcReadable(t)
    ensures s.Rmc?
    ensures s.time == MakeTime(t, 1) && s.warning == FirstByte(t.Part(2))
    ensures s.latitude == MakeCoordinate(t, 3) && s.longitude == MakeCoordinate(t, 5)
    ensures s.groundspeedKnots == Atof(t.Part(7)) && s.trackAngle == SafeFloat(t, 8)
    ensures s.date == MakeDate(t, 9)
    ensures s.magvar.Some? <==> Available(t, 10)
    ensures s.magvar.Some? ==>
      && (s.magvar.value.sign == -1 <==> SouthOrWest(t.Part(11)))
      && s.magvar.value.magnitude == Atof(t.Part(10))
    ensures s.trackAngle == MinusOne <==> !Available(t, 8)
    ensures s.latitude.sign == -1 <==> SouthOrWest(t.Part(4))
    ensures s.longitude.sign == -1 <==> SouthOrWest(t.Part(6))
  {
    Rmc(MakeTime(t, 1), FirstByte(t.Part(2)), MakeCoordinate(t, 3), MakeCoordinate(t, 5),
        MakeFloat(t, 7), SafeFloat(t, 8), MakeDate(t, 9),
        if Available(t, 10) then Some(MagVar(HemiSign(t, 11), MakeFloat(t, 10))) else None)
  }

  // ---------------------------------------------------------------------
  // VTG: true track 1, magnetic track 3, knots 5, km/h 7

  predicate VtgReadable(t: Tokens)
  {
    t.Written(7)
  }

  /** `GPVTG_Message(msg)`: each of the four values is the `-1` sentinel
      exactly when its part is empty. */
  function DecodeVtg(t: Tokens): (s: Sentence)
    requires VtgReadable(t)
    ensures s.Vtg?
    ensures s.trackMadeGoodTrue == SafeFloat(t, 1) && s.trackMadeGoodMagnetic == SafeFloat(t, 3)
    ensures s.speedKnots == SafeFloat(t, 5) && s.speedKph == SafeFloat(t, 7)
    ensures s.trackMadeGoodTrue == MinusOne <==> !Available(t, 1)
    ensures s.trackMadeGoodMagnetic == MinusOne <==> !Available(t, 3)
    ensures s.speedKnots == MinusOne <==> !Available(t, 5)
    ensures s.speedKph == MinusOne <==> !Available(t, 7)
  {
    Vtg(SafeFloat(t, 1), SafeFloat(t, 3), SafeFloat(t, 5), SafeFloat(t, 7))
  }

  // ---------------------------------------------------------------------

  predicate Readable(k: Kind, t: Tokens)
  {
    match k
    case GGA => GgaReadable(t)
    case GLL => GllReadable(t)
    case GSA => GsaReadable(t)
    case GSV => GsvReadable(t)
    case RMC => RmcReadable(t)
    case VTG => VtgReadable(t)
  }

  /** The decoder `parse` constructs for a kind; the record it yields is of
      that kind. */
  function Decode(k: Kind, t: Tokens): (s: Sentence)
    requires Readable(k, t)
    ensures k == GGA ==> s.Gga?
    ensures k == GLL ==> s.Gll?
    ensures k == GSA ==> s.Gsa?
    ensures k == GSV ==> s.Gsv? && s == DecodeGsv(t)
    ensures k == RMC ==> s.Rmc?
    ensures k == VTG ==> s.Vtg?
  {
    match k
    case GGA => DecodeGga(t)
    case GLL => DecodeGll(t)
    case GSA => DecodeGsa(t)
    case GSV => DecodeGsv(t)
    case RMC => DecodeRmc(t)
    case VTG => DecodeVtg(t)
  }

  /** A decoded record is of the kind it was decoded as. */
  lemma DecodeTag(k: Kind, t: Tokens)
    requires Readable(k, t)
    ensures Decode(k, t).Tag() == k
  {
  }
}

=== FILE: text.dfy ===
/** Byte-level text helpers shared by the NMEA model: the wire byte, C string
    termination, the signed `char` the source computes with, and the C
    library readers it relies on (`atoi`/`atol`, `sscanf` with `%x`) together
    with the `%02X` writer used when framing. */
module Text {
  import opened Wrappers

  /** One byte of the serial stream, carried as a `char` whose code fits in 8 bits. */
  type Byte = c: char | c as int < 256 witness '\0'

  const NUL: char := '\0'

  /** The value of an 8-bit code read through a signed `char` (two's complement). */
  function Signed(code: int): (v: int)
    requires 0 <= code < 256
    ensures -128 <= v < 128
    ensures (v - code) % 256 == 0
  {
    if code < 128 then code else code - 256
  }

  /** The C string held in `s`: its bytes up to, not including, the first NUL. */
  function CStr(s: seq<Byte>): (r: seq<Byte>)
    ensures r <= s
    ensures NUL !in r
    ensures |r| < |s| ==> s[|r|] == NUL
  {
    if |s| == 0 || s[0] == NUL then [] else [s[0]] + CStr(s[1..])
  }

  /** Index of the first occurrence of `c` in `s`, or `|s|` when there is none
      (where `strchr` returns NULL and the checksum loop reaches the NUL). */
  function Find(s: seq<char>, c: char): (i: nat)
    ensures i <= |s|
    ensures c !in s[..i]
    ensures i < |s| ==> s[i] == c
  {
    if |s| == 0 then 0
    else if s[0] == c then 0
    else assert s[1..][..Find(s[1..], c)] == s[1..1 + Find(s[1..], c)]; 1 + Find(s[1..], c)
  }

  /** `Find` stops at the first occurrence. */
  lemma FindFirst(s: seq<char>, c: char, i: nat)
    requires i < |s| && s[i] == c && c !in s[..i]
    ensures Find(s, c) == i
  {
    var j := Find(s, c);
    if j < i {
      assert false;
    } else if j > i {
      assert false;
    }
  }

  /** Number of occurrences of `c` in `s`. */
  function Count(s: seq<char>, c: char): nat
  {
    if |s| == 0 then 0 else Count(s[..|s|-1], c) + (if s[|s|-1] == c then 1 else 0)
  }

  // ---------------------------------------------------------------------
  // Decimal numbers

  predicate IsDigit(c: char) { '0' <= c <= '9' }

  predicate IsDigits(s: seq<char>) { forall i :: 0 <= i < |s| ==> IsDigit(s[i]) }

  function Pow10(n: nat): (p: nat)
    ensures p >= 1
  {
    if n == 0 then 1 else 10 * Pow10(n - 1)
  }

  /** The number a string of decimal digits denotes, most significant digit first. */
  function DecimalValue(s: seq<char>): (v: nat)
    requires IsDigits(s)
    ensures v < Pow10(|s|)
  {
    if |s| == 0 then 0 else 10 * DecimalValue(s[..|s|-1]) + (s[|s|-1] as int - '0' as int)
  }

  /** Reading the digits of `a` then those of `b` is reading `a` shifted past `b`. */
  lemma {:induction false} DecimalValueAppend(a: seq<char>, b: seq<char>)
    requires IsDigits(a) && IsDigits(b)
    ensures DecimalValue(a + b) == DecimalValue(a) * Pow10(|b|) + DecimalValue(b)
  {
    if |b| == 0 {
      assert a + b == a;
    } else {
      var b' := b[..|b|-1];
      var last := b[|b|-1] as int - '0' as int;
      assert (a + b)[..|a + b| - 1] == a + b';
      assert DecimalValue(a + b) == 10 * DecimalValue(a + b') + last;
      assert DecimalValue(b) == 10 * DecimalValue(b') + last;
      DecimalValueAppend(a, b');
      ShiftDigit(DecimalValue(a), Pow10(|b'|), DecimalValue(b'), last);
    }
  }

  lemma ShiftDigit(x: int, p: int, y: int, last: int)
    ensures 10 * (x * p + y) + last == x * (10 * p) + (10 * y + last)
  {
  }

  /** The longest prefix of `s` made of decimal digits. */
  function DigitRun(s: seq<char>): (r: seq<char>)
    ensures r <= s && IsDigits(r)
    ensures |r| < |s| ==> !IsDigit(s[|r|])
  {
    if |s| == 0 || !IsDigit(s[0]) then [] else [s[0]] + DigitRun(s[1..])
  }

  /** A string of digits is its own digit run. */
  lemma DigitRunAll(s: seq<char>)
    ensures IsDigits(s) ==> DigitRun(s) == s
  {
    if IsDigits(s) {
      var r := DigitRun(s);
      if |r| < |s| {
        assert false;
      }
    }
  }

  /** The digit run of digits followed by a non-digit is those digits. */
  lemma {:induction false} DigitRunStops(d: seq<char>, rest: seq<char>)
    requires IsDigits(d)
    requires |rest| == 0 || !IsDigit(rest[0])
    ensures DigitRun(d + rest) == d
  {
    if |d| == 0 {
      assert d + rest == rest;
    } else {
      assert (d + rest)[1..] == d[1..] + rest;
      DigitRunStops(d[1..], rest);
    }
  }

  /** White space as C's `isspace` classifies it in the C locale. */
  predicate IsSpace(c: char)
  {
    c == ' ' || c == '\t' || c == '\n' || c == '\U{0B}' || c == '\U{0C}' || c == '\r'
  }

  /** `s` without its leading white space. */
  function SkipSpace(s: seq<char>): (r: seq<char>)
    ensures |r| <= |s| && r == s[|s| - |r|..]
    ensures forall i :: 0 <= i < |s| - |r| ==> IsSpace(s[i])
    ensures |r| > 0 ==> !IsSpace(r[0])
  {
    if |s| == 0 || !IsSpace(s[0]) then s else SkipSpace(s[1..])
  }

  /** C's `atoi`/`atol`: leading white space, an optional sign, then the longest
      run of decimal digits; 0 when no digit follows. The result is an
      unbounded integer (the source's `int`/`long` overflow is not modelled). */
  function Atoi(s: seq<char>): (v: int)
    ensures IsDigits(s) ==> v == DecimalValue(s)
    ensures |s| > 0 && !IsDigit(s[0]) && !IsSpace(s[0]) && s[0] != '-' && s[0] != '+' ==> v == 0
  {
    DigitRunAll(s);
    var t := SkipSpace(s);
    if |t| > 0 && t[0] == '-' then -(DecimalValue(DigitRun(t[1..])) as int)
    else if |t| > 0 && t[0] == '+' then DecimalValue(DigitRun(t[1..]))
    else DecimalValue(DigitRun(t))
  }

  /** `atoi` stops at the first byte that is not a digit. */
  lemma AtoiStops(d: seq<char>, rest: seq<char>)
    requires |d| > 0 && IsDigits(d)
    requires |rest| == 0 || !IsDigit(rest[0])
    ensures Atoi(d + rest) == DecimalValue(d)
  {
    var s := d + rest;
    assert SkipSpace(s) == s;
    DigitRunStops(d, rest);
  }

  // ---------------------------------------------------------------------
  // C integer division

  /** C's `/` on `int`: the quotient truncated toward zero. */
  function CDiv(a: int, b: int): (q: int)
    requires b > 0
    ensures a >= 0 ==> 0 <= a - b * q < b
    ensures a < 0 ==> -b < a - b * q <= 0
  {
    if a >= 0 then a / b else -((-a) / b)
  }

  /** C's `%` on `int`: the remainder of `CDiv`, carrying the dividend's sign. */
  function CMod(a: int, b: int): (r: int)
    requires b > 0
    ensures a == b * CDiv(a, b) + r
    ensures -b < r < b
    ensures a >= 0 ==> r >= 0
  {
    a - b * CDiv(a, b)
  }

  // ---------------------------------------------------------------------
  // Hexadecimal numbers

  predicate IsHexDigit(c: char)
  {
    '0' <= c <= '9' || 'a' <= c <= 'f' || 'A' <= c <= 'F'
  }

  predicate IsHexDigits(s: seq<char>) { forall i :: 0 <= i < |s| ==> IsHexDigit(s[i]) }

  function HexDigitValue(c: char): (v: nat)
    requires IsHexDigit(c)
    ensures v < 16
  {
    if '0' <= c <= '9' then c as int - '0' as int
    else if 'a' <= c <= 'f' then c as int - 'a' as int + 10
    else c as int - 'A' as int + 10
  }

  /** The number a string of hexadecimal digits denotes, most significant first. */
  function HexValue(s: seq<char>): nat
    requires IsHexDigits(s)
  {
    if |s| == 0 then 0 else 16 * HexValue(s[..|s|-1]) + HexDigitValue(s[|s|-1])
  }

  /** A string of hexadecimal digits is its own run. */
  lemma HexRunAll(s: seq<char>)
    ensures IsHexDigits(s) ==> HexRun(s) == s
  {
    if IsHexDigits(s) {
      var r := HexRun(s);
      if |r| < |s| {
        assert false;
      }
    }
  }

  /** The longest prefix of `s` made of hexadecimal digits. */
  function HexRun(s: seq<char>): (r: seq<char>)
    ensures r <= s && IsHexDigits(r)
    ensures |r| < |s| ==> !IsHexDigit(s[|r|])
  {
    if |s| == 0 || !IsHexDigit(s[0]) then [] else [s[0]] + HexRun(s[1..])
  }

  predicate IsUpperHexDigit(c: char) { '0' <= c <= '9' || 'A' <= c <= 'F' }

  predicate IsUpperHex(s: seq<char>) { forall i :: 0 <= i < |s| ==> IsUpperHexDigit(s[i]) }

  /** The upper-case hexadecimal digit of `d`. */
  function UpperHexDigit(d: nat): (c: Byte)
    requires d < 16
    ensures IsUpperHexDigit(c) && HexDigitValue(c) == d
  {
    if d < 10 then (48 + d) as char else (55 + d) as char
  }

  /** The upper-case hexadecimal numeral of `v`, without leading zeros. */
  function HexNumeral(v: nat): (r: seq<Byte>)
    ensures IsUpperHex(r) && IsHexDigits(r)
    ensures HexValue(r) == v
    ensures |r| == if v < 16 then 1 else |HexNumeral(v / 16)| + 1
    decreases v
  {
    var d := UpperHexDigit(v % 16);
    if v < 16 then [d]
    else
      var r := HexNumeral(v / 16) + [d];
      assert r[..|r|-1] == HexNumeral(v / 16);
      r
  }

  /** A leading zero does not change a hexadecimal value. */
  lemma {:induction false} HexValueLeadingZero(s: seq<char>)
    requires IsHexDigits(s)
    ensures IsHexDigits(['0'] + s) && HexValue(['0'] + s) == HexValue(s)
  {
    if |s| > 0 {
      var s' := s[..|s|-1];
      assert (['0'] + s)[..|s|] == ['0'] + s';
      HexValueLeadingZero(s');
    }
  }

  /** `printf("%02X", v)`: the upper-case hexadecimal numeral of `v`, padded
      with zeros to at least two digits. */
  function Hex02(v: nat): (r: seq<Byte>)
    ensures |r| >= 2 && IsUpperHex(r) && IsHexDigits(r)
    ensures HexValue(r) == v
  {
    var n := HexNumeral(v);
    if |n| == 1 then HexValueLeadingZero(n); ['0'] + n else n
  }

  /** `%02X` prints exactly two digits for byte values and more beyond them. */
  lemma Hex02Width(v: nat)
    ensures v < 256 <==> |Hex02(v)| == 2
  {
    NumeralLength(v);
  }

  function Pow16(n: nat): (p: nat)
    ensures p >= 1
  {
    if n == 0 then 1 else 16 * Pow16(n - 1)
  }

  /** A value below 16^k prints in at most `k` digits, for `k` of 2 or more. */
  lemma {:induction false} Hex02AtMost(v: nat, k: nat)
    requires 2 <= k && v < Pow16(k)
    ensures |Hex02(v)| <= k
  {
    NumeralAtMost(v, k);
  }

  lemma {:induction false} NumeralAtMost(v: nat, k: nat)
    requires 1 <= k && v < Pow16(k)
    ensures |HexNumeral(v)| <= k
  {
    if v >= 16 {
      assert k >= 2;
      NumeralAtMost(v / 16, k - 1);
    }
  }

  /** A value of at least 16^(k-1) prints in at least `k` digits. */
  lemma {:induction false} Hex02AtLeast(v: nat, k: nat)
    requires 1 <= k && Pow16(k - 1) <= v
    ensures |Hex02(v)| >= k
  {
    NumeralAtLeast(v, k);
  }

  lemma {:induction false} NumeralAtLeast(v: nat, k: nat)
    requires 1 <= k && Pow16(k - 1) <= v
    ensures |HexNumeral(v)| >= k
  {
    if k > 1 {
      assert Pow16(k - 1) == 16 * Pow16(k - 2);
      assert v >= 16 && v / 16 >= Pow16(k - 2);
      NumeralAtLeast(v / 16, k - 1);
    }
  }

  lemma NumeralLength(v: nat)
    ensures |HexNumeral(v)| == 1 <==> v < 16
    ensures |HexNumeral(v)| == 2 <==> 16 <= v < 256
  {
    if v >= 16 {
      var q := v / 16;
      assert |HexNumeral(v)| == |HexNumeral(q)| + 1;
      assert |HexNumeral(q)| >= 1;
      if q >= 16 {
        assert |HexNumeral(q)| == |HexNumeral(q / 16)| + 1;
        assert v >= 256;
      } else {
        assert v < 256;
      }
    }
  }

  // ---------------------------------------------------------------------
  // Integer widths: a 32-bit `int` and a 64-bit `unsigned long`

  const IntRange: nat := 0x1_0000_0000
  const ULongRange: nat := 0x1_0000_0000_0000_0000

  /** `(unsigned) v` for a 32-bit `int`: what `%X` prints for a promoted `char`. */
  function Unsigned32(v: int): (u: nat)
    requires -0x8000_0000 <= v < 0x8000_0000
    ensures u < IntRange
    ensures (u - v) % IntRange == 0
  {
    if v < 0 then v + IntRange else v
  }

  /** A 32-bit pattern read back through an `int` (two's complement). */
  function Signed32(u: nat): (v: int)
    requires u < IntRange
    ensures -0x8000_0000 <= v < 0x8000_0000
    ensures (u - v) % IntRange == 0
  {
    if u < 0x8000_0000 then u else u - IntRange
  }

  /** Storing an `int` as `unsigned` and reading it back gives the `int`. */
  lemma Signed32Unsigned32(v: int)
    requires -0x8000_0000 <= v < 0x8000_0000
    ensures Signed32(Unsigned32(v)) == v
  {
  }

  /** `strtoul` on a run of digits worth `v`, with `negative` for a leading
      `-`: the value saturates at the largest `unsigned long` and a negated
      value wraps modulo 2^64. */
  function Strtoul(v: nat, negative: bool): (u: nat)
    ensures u < ULongRange
    ensures v >= ULongRange ==> u == ULongRange - 1
    ensures v < ULongRange && !negative ==> u == v
    ensures v < ULongRange && negative ==> (u + v) % ULongRange == 0
  {
    if v >= ULongRange then ULongRange - 1
    else if negative && v > 0 then ULongRange - v
    else v
  }

  /** The text `%x` converts: leading white space, an optional sign, an
      optional `0x`/`0X` prefix, then the longest run of hexadecimal digits.
      The digits' value and whether a `-` came first; `None` when there is no
      digit. */
  function ScanDigits(s: seq<char>): Option<(nat, bool)>
  {
    var t := SkipSpace(s);
    var negative := |t| > 0 && t[0] == '-';
    var u := if |t| > 0 && (t[0] == '-' || t[0] == '+') then t[1..] else t;
    var w := if |u| >= 3 && u[0] == '0' && (u[1] == 'x' || u[1] == 'X') && IsHexDigit(u[2]) then u[2..] else u;
    var d := HexRun(w);
    if |d| == 0 then None else Some((HexValue(d), negative))
  }

  /** An `unsigned long` stored through an `int`: its low 32 bits. */
  function StoreInt(u: nat): (v: int)
    ensures -0x8000_0000 <= v < 0x8000_0000
    ensures (u - v) % IntRange == 0
  {
    Signed32(u % IntRange)
  }

  /** `sscanf(s, "%x", &chk)` with `int chk`: the digits converted as
      `strtoul` does and stored as the low 32 bits of the `int`. `None` when
      no digit is converted (the source then leaves `chk` unset). An unsigned
      numeral below 2^32 comes back as the `int` with its bit pattern. */
  function ScanHex(s: seq<char>): (r: Option<int>)
    ensures r.None? <==> ScanDigits(s).None?
    ensures r.Some? ==> -0x8000_0000 <= r.value < 0x8000_0000
  {
    match ScanDigits(s)
    case None => None
    case Some((v, negative)) => Some(StoreInt(Strtoul(v, negative)))
  }

  /** `%x` reads a plain numeral of a 32-bit pattern back as the `int` with
      that pattern. */
  lemma ScanHexNumeral(s: seq<char>)
    requires |s| > 0 && IsHexDigits(s) && HexValue(s) < IntRange
    ensures ScanHex(s) == Some(Signed32(HexValue(s)))
  {
    NumeralDigits(s);
    StoredLow(HexValue(s));
  }

  /** The hexadecimal run of hex digits followed by a non-hex byte is those
      digits: `%x` stops at the first byte that is not a hex digit. */
  lemma {:induction false} HexRunStops(d: seq<char>, rest: seq<char>)
    requires IsHexDigits(d)
    requires |rest| == 0 || !IsHexDigit(rest[0])
    ensures HexRun(d + rest) == d
  {
    if |d| == 0 {
      assert d + rest == rest;
    } else {
      assert (d + rest)[1..] == d[1..] + rest;
      HexRunStops(d[1..], rest);
    }
  }

  /** `%x` reads a numeral followed by a byte that is not a hex digit (a
      carriage return, say) as the numeral alone. A lone `0` followed by `x`
      would be read as a `0x` prefix instead, which the second requirement
      excludes. */
  lemma ScanHexStops(d: seq<char>, rest: seq<char>)
    requires |d| > 0 && IsHexDigits(d) && HexValue(d) < IntRange
    requires |rest| == 0 || !IsHexDigit(rest[0])
    requires |d| == 1 && d[0] == '0' && |rest| > 0 ==> rest[0] != 'x' && rest[0] != 'X'
    ensures ScanHex(d + rest) == Some(Signed32(HexValue(d)))
  {
    DigitsStop(d, rest);
    StoredLow(HexValue(d));
  }

  /** The conversion `ScanHexStops` describes, before the store. */
  lemma DigitsStop(d: seq<char>, rest: seq<char>)
    requires |d| > 0 && IsHexDigits(d)
    requires |rest| == 0 || !IsHexDigit(rest[0])
    requires |d| == 1 && d[0] == '0' && |rest| > 0 ==> rest[0] != 'x' && rest[0] != 'X'
    ensures ScanDigits(d + rest) == Some((HexValue(d), false))
  {
    var s := d + rest;
    var c := d[0];
    assert s[0] == c && IsHexDigit(c) && !IsSpace(c);
    var t := SkipSpace(s);
    assert t == s;
    assert !(t[0] == '-' || t[0] == '+');
    assert !(|t| >= 3 && t[0] == '0' && (t[1] == 'x' || t[1] == 'X')) by {
      if |t| >= 3 {
        if |d| >= 2 {
          assert t[1] == d[1] && IsHexDigit(d[1]);
        } else {
          assert t[1] == rest[0];
        }
      }
    }
    HexRunStops(d, rest);
    assert HexRun(t) == d;
  }

  /** A plain numeral is converted whole, without sign. */
  lemma NumeralDigits(s: seq<char>)
    requires |s| > 0 && IsHexDigits(s)
    ensures ScanDigits(s) == Some((HexValue(s), false))
  {
    assert IsHexDigit(s[0]);
    var t := SkipSpace(s);
    assert t == s;
    assert !(t[0] == '-' || t[0] == '+');
    assert !(|s| >= 3 && s[0] == '0' && (s[1] == 'x' || s[1] == 'X')) by {
      if |s| >= 3 {
        assert IsHexDigit(s[1]);
      }
    }
    HexRunAll(s);
    assert HexRun(s) == s;
  }

  /** A non-negative value below 2^32 is stored as its own pattern. */
  lemma StoredLow(v: nat)
    requires v < IntRange
    ensures StoreInt(Strtoul(v, false)) == Signed32(v)
  {
    assert Strtoul(v, false) == v;
    assert v % IntRange == v;
  }

  /** `%x` converts nothing from text that cannot start a number. */
  lemma ScanHexNothing(s: seq<char>)
    requires |s| > 0 && !IsHexDigit(s[0]) && !IsSpace(s[0]) && s[0] != '-' && s[0] != '+'
    ensures ScanHex(s) == None
  {
    assert SkipSpace(s) == s;
    var d := HexRun(s);
    if |d| > 0 {
      assert false;
    }
  }
}

=== FILE: tokenizer.dfy ===
/** The field tokenizer of `NMEA_Message(char *)`: the terminated message is
    split on `,` into the fixed `parts[20][30]` table. Every comma closes a
    field and bumps `nparts`, so empty fields are kept; the text after the last
    comma (which holds `*HH` and whatever line end is left) is written to
    `parts[nparts]` but not counted. */
module Tokenizer {
  import opened Wrappers
  import opened Text

  /** Rows of `parts[20][30]`. */
  const MaxParts: nat := 20
  /** Bytes per row of `parts[20][30]`, terminator included. */
  const PartSize: nat := 30

  /** A tokenized message. `fields` are the comma-terminated parts, so
      `|fields|` is the source's `nparts`; `rest` is the unterminated text after
      the last comma, which the source leaves in `parts[nparts]`. */
  datatype Tokens = Tokens(fields: seq<seq<Byte>>, rest: seq<Byte>)
  {
    function NParts(): nat { |fields| }

    /** `parts[k]` for the rows the tokenizer wrote. */
    function Part(k: nat): seq<Byte>
      requires k <= NParts()
    {
      if k < |fields| then fields[k] else rest
    }

    /** Whether the tokenizer wrote `parts[k]`: every counted part, and
        `parts[nparts]` only when some text follows the last comma. A message
        ending in `,` leaves `parts[nparts]` as it was before. */
    predicate Written(k: nat)
    {
      k < NParts() || (k == NParts() && |rest| > 0)
    }
  }

  /** The parts, comma-joined again. */
  function Join(parts: seq<seq<Byte>>): seq<Byte>
    requires |parts| >= 1
  {
    if |parts| == 1 then parts[0] else Join(parts[..|parts|-1]) + [','] + parts[|parts|-1]
  }

  /** `m` cut at every comma, empty segments kept: the reference the
      tokenizer's loop is measured against. */
  function Split(m: seq<Byte>): (r: seq<seq<Byte>>)
    ensures |r| == Count(m, ',') + 1
    ensures forall k :: 0 <= k < |r| ==> ',' !in r[k]
  {
    if |m| == 0 then [[]]
    else
      var init := Split(m[..|m|-1]);
      var c := m[|m|-1];
      if c == ',' then init + [[]]
      else init[..|init|-1] + [init[|init|-1] + [c]]
  }

  /** Joining the segments gives the message back. */
  lemma {:induction false} SplitJoin(m: seq<Byte>)
    ensures Join(Split(m)) == m
  {
    if |m| > 0 {
      var m' := m[..|m|-1];
      var c := m[|m|-1];
      var init := Split(m');
      SplitJoin(m');
      assert m == m' + [c];
      if c == ',' {
        JoinAppendEmpty(init);
      } else {
        JoinExtendLast(init, c);
      }
    }
  }

  lemma JoinAppendEmpty(parts: seq<seq<Byte>>)
    requires |parts| >= 1
    ensures Join(parts + [[]]) == Join(parts) + [',']
  {
    var p := parts + [[]];
    assert p[..|p|-1] == parts;
  }

  /** Extending the last part extends the joined text. */
  lemma JoinExtendLast(parts: seq<seq<Byte>>, c: Byte)
    requires |parts| >= 1
    ensures Join(parts[..|parts|-1] + [parts[|parts|-1] + [c]]) == Join(parts) + [c]
  {
    var before := parts[..|parts|-1];
    var p := before + [parts[|parts|-1] + [c]];
    if |parts| > 1 {
      assert p[..|p|-1] == before;
    }
  }

  /** Splitting a comma-free joined list gives the list back, so `Split` is the
      one decomposition of a message into comma-free fields. */
  lemma {:induction false} JoinSplit(parts: seq<seq<Byte>>)
    requires |parts| >= 1
    requires forall k :: 0 <= k < |parts| ==> ',' !in parts[k]
    ensures Split(Join(parts)) == parts
  {
    if |parts| == 1 {
      SplitOfFieldFree(parts[0]);
    } else {
      var before := parts[..|parts|-1];
      var last := parts[|parts|-1];
      assert forall k :: 0 <= k < |before| ==> before[k] == parts[k];
      assert Join(parts) == Join(before) + [','] + last;
      JoinSplit(before);
      SplitAppendField(Join(before), last);
      assert Split(Join(before)) + [last] == parts;
    }
  }

  /** A comma-free text is one segment. */
  lemma {:induction false} SplitOfFieldFree(f: seq<Byte>)
    requires ',' !in f
    ensures Split(f) == [f]
  {
    if |f| > 0 {
      var f' := f[..|f|-1];
      assert ',' !in f';
      assert f == f' + [f[|f|-1]];
      SplitOfFieldFree(f');
    }
  }

  /** Appending `,` and a comma-free text adds that text as a new segment. */
  lemma {:induction false} SplitAppendField(m: seq<Byte>, f: seq<Byte>)
    requires ',' !in f
    ensures Split(m + [','] + f) == Split(m) + [f]
    decreases |f|
  {
    if |f| == 0 {
      assert (m + [','] + f)[..|m| + 1 - 1] == m;
      assert m + [','] + f == m + [','];
      assert (m + [','])[..|m|] == m;
    } else {
      var f' := f[..|f|-1];
      var c := f[|f|-1];
      assert ',' !in f';
      assert f == f' + [c];
      SplitAppendField(m, f');
      var x := m + [','] + f;
      assert x[..|x| - 1] == m + [','] + f';
      var init := Split(m) + [f'];
      assert init[..|init|-1] == Split(m);
    }
  }

  /** The tokens the source builds from `m`, capacity aside. */
  function Segments(m: seq<Byte>): (t: Tokens)
    ensures t.NParts() == Count(m, ',')
  {
    var s := Split(m);
    Tokens(s[..|s|-1], s[|s|-1])
  }

  /** Every write of the loop lands inside `parts[20][30]`: a field with its
      terminator in a row of 30, at most 20 rows, and the unterminated rest in
      row `nparts`, which must exist when anything is written to it. */
  predicate Fits(t: Tokens)
  {
    && |t.fields| <= MaxParts
    && (forall k :: 0 <= k < |t.fields| ==> |t.fields[k]| < PartSize)
    && |t.rest| <= PartSize
    && (|t.rest| > 0 ==> |t.fields| < MaxParts)
  }

  /** The tokenizer's result: the segments of `m` when they fit the table, and
      `None` for a message the source would write past `parts[20][30]`. */
  function Tokenize(m: seq<Byte>): (r: Option<Tokens>)
    ensures r.Some? ==> Fits(r.value) && r.value.NParts() == Count(m, ',')
    ensures r.Some? ==> Join(r.value.fields + [r.value.rest]) == m
  {
    var t := Segments(m);
    if Fits(t) then
      var s := Split(m);
      assert t.fields + [t.rest] == s;
      SplitJoin(m);
      Some(t)
    else None
  }

  /** Tokens whose parts hold no comma and fit the table are what the
      tokenizer makes of their comma-joined text. */
  lemma TokenizeJoin(t: Tokens)
    requires Fits(t)
    requires forall k :: 0 <= k < |t.fields| ==> ',' !in t.fields[k]
    requires ',' !in t.rest
    ensures Tokenize(Join(t.fields + [t.rest])) == Some(t)
  {
    var parts := t.fields + [t.rest];
    assert forall k :: 0 <= k < |parts| ==> ',' !in parts[k] by {
      forall k | 0 <= k < |parts|
        ensures ',' !in parts[k]
      {
        if k < |t.fields| {
          assert parts[k] == t.fields[k];
        }
      }
    }
    JoinSplit(parts);
    assert parts[..|parts| - 1] == t.fields;
  }

  /** The source's character loop (`while (*p)`), writing one byte per step at
      `parts[nparts][j]` (a character, or the terminator on `,`) and failing as
      soon as such a write would fall outside the table. */
  method TokenizeBytes(m: seq<Byte>) returns (r: Option<Tokens>)
    requires NUL !in m
    ensures r == Tokenize(m)
  {
    var fields: seq<seq<Byte>> := [];
    var current: seq<Byte> := [];
    var i := 0;
    while i < |m|
      invariant 0 <= i <= |m|
      invariant Split(m[..i]) == fields + [current]
      invariant Fits(Tokens(fields, current))
    {
      if !(|fields| < MaxParts && |current| < PartSize) {
        Overflows(m, i, fields, current);
        return None;
      }
      Advance(m, i, fields, current);
      if m[i] == ',' {
        fields := fields + [current];
        current := [];
      } else {
        current := current + [m[i]];
      }
      i := i + 1;
    }
    assert m[..i] == m;
    assert Segments(m) == Tokens(fields, current);
    return Some(Tokens(fields, current));
  }

  /** A byte whose write lands inside the table: the loop's state after it
      is the split of one more byte, and still fits. */
  lemma Advance(m: seq<Byte>, i: nat, fields: seq<seq<Byte>>, current: seq<Byte>)
    requires i < |m|
    requires Split(m[..i]) == fields + [current]
    requires Fits(Tokens(fields, current))
    requires |fields| < MaxParts && |current| < PartSize
    ensures m[i] == ',' ==> Split(m[..i + 1]) == (fields + [current]) + [[]]
    ensures m[i] == ',' ==> Fits(Tokens(fields + [current], []))
    ensures m[i] != ',' ==> Split(m[..i + 1]) == fields + [current + [m[i]]]
    ensures m[i] != ',' ==> Fits(Tokens(fields, current + [m[i]]))
  {
    SplitStep(m, i);
    FitsStep(fields, current, m[i]);
    var s := fields + [current];
    assert s[..|s| - 1] == fields && s[|s| - 1] == current;
  }

  /** A byte whose write falls outside the table: the message does not fit. */
  lemma Overflows(m: seq<Byte>, i: nat, fields: seq<seq<Byte>>, current: seq<Byte>)
    requires i < |m|
    requires Split(m[..i]) == fields + [current]
    requires Fits(Tokens(fields, current))
    requires !(|fields| < MaxParts && |current| < PartSize)
    ensures Tokenize(m) == None
  {
    var s := fields + [current];
    assert s[..|s| - 1] == fields && s[|s| - 1] == current;
    assert Segments(m[..i]) == Tokens(fields, current);
    FitsGrows(m, i);
  }

  /** One more byte either closes the current segment or extends it. */
  lemma SplitStep(m: seq<Byte>, i: nat)
    requires i < |m|
    ensures var s := Split(m[..i]);
      Split(m[..i + 1]) == if m[i] == ',' then s + [[]] else s[..|s|-1] + [s[|s|-1] + [m[i]]]
  {
    assert m[..i + 1][..i] == m[..i];
  }

  /** A byte whose write lands inside the table keeps the tokens within it. */
  lemma FitsStep(fields: seq<seq<Byte>>, current: seq<Byte>, c: Byte)
    requires Fits(Tokens(fields, current))
    requires |fields| < MaxParts && |current| < PartSize
    ensures c == ',' ==> Fits(Tokens(fields + [current], []))
    ensures c != ',' ==> Fits(Tokens(fields, current + [c]))
  {
  }

  /** The write of byte `i` falls outside the table exactly when the first
      `i + 1` bytes no longer fit it. */
  lemma StepOverflows(m: seq<Byte>, i: nat)
    requires i < |m|
    requires Fits(Segments(m[..i]))
    ensures var s := Split(m[..i]);
      (|s| - 1 < MaxParts && |s[|s|-1]| < PartSize) <==> Fits(Segments(m[..i + 1]))
  {
    assert m[..i + 1][..i] == m[..i];
  }

  /** What fits the table still fits it without its last byte. */
  lemma FitsShrinks(a: seq<Byte>, c: Byte)
    requires Fits(Segments(a + [c]))
    ensures Fits(Segments(a))
  {
    assert (a + [c])[..|a|] == a;
  }

  /** What fits the table still fits it cut to any prefix. */
  lemma {:induction false} FitsPrefix(m: seq<Byte>, i: nat)
    requires i <= |m|
    requires Fits(Segments(m))
    ensures Fits(Segments(m[..i]))
    decreases |m| - i
  {
    if i < |m| {
      FitsPrefix(m, i + 1);
      assert m[..i + 1] == m[..i] + [m[i]];
      FitsShrinks(m[..i], m[i]);
    } else {
      assert m[..i] == m;
    }
  }

  /** Once a write falls outside the table, the whole message does not fit. */
  lemma FitsGrows(m: seq<Byte>, i: nat)
    requires i < |m|
    requires Fits(Segments(m[..i]))
    requires var s := Split(m[..i]); !(|s| - 1 < MaxParts && |s[|s|-1]| < PartSize)
    ensures Tokenize(m) == None
  {
    StepOverflows(m, i);
    if Fits(Segments(m)) {
      FitsPrefix(m, i + 1);
    }
  }
}

=== FILE: wrappers.dfy ===
/** The optional-value datatype used across the model. */
module Wrappers {

  /** A value that may be absent. */
  datatype Option<+T> = None | Some(value: T)
}
